=== FILE: README.md ===
# shm-admin dashboard core in Dafny

A functional model of the logic inside the SHM admin dashboard, a TypeScript
web front end. The model covers these parts:

- **Template completion** (`TtCompletion`). A snippet catalog becomes a flat list of
  editor suggestions, one for each prefix. On each request, the text left of the
  cursor decides three things: whether the cursor sits in an open `{{` tag, whether
  the list is narrowed to an `identifier.` group, and whether it is narrowed to
  dotted labels. A flag stored on the editor host makes registration happen only once.
- **API filter builder** (`FilterUtils`). The values of a table's filter row become
  exact values or `{"-like": "%v%"}` patterns. A dotted key is placed at a nested
  path. The result is appended to a URL.
- **List-response normaliser** (`ListResponse`). A bare array and an
  `{data, items?, total?}` object are both brought to `{data, total}`.
- **Dashboard aggregation** (`Dashboard`). This covers:
  - which payments are real;
  - the day key of a payment date;
  - per-day sums and the chart timeline;
  - per-status service counts;
  - the zero/empty defaults when a request is rejected.
- **Server form** (`ServerModal`). This covers:
  - how the form is seeded;
  - single-field edits;
  - the ordered validation chain of Save;
  - removal of the settings that do not belong to the chosen mode;
  - the Delete guard.
- **Sign-in page** (`LoginFlow`). The login → password → one-time-code steps,
  the back button, the passkey guard and the one-time-code sanitiser.
- **Auth store** (`AuthStore`). The user, the `session-id` cookie inside a cookie jar,
  and the three-minute cookie refresh. The `/session-id=([^;]+)/` read-back is
  modelled exactly.
- **Branding store** (`BrandingStore`). Loading of the company branding with field
  defaults. Update and reset commit only on status 200.

Shared vocabulary is kept in two modules:

- `Prelude` holds `Option`, order-preserving `Filter` and subsequences.
- `Text` holds the JavaScript string operations the code uses: `trim`,
  `lastIndexOf`, `slice`, `split`/`join`, ASCII `toLowerCase`, and the `\w`/`\d`
  classes.

Every operation is a pure function over immutable data. The only exceptions are
two methods: the status counting loop and the dashboard assembly. Answers of the
server, the passkey service and the calendar are parameters.

Two behaviours are worth stating directly. Text outside any `{{` tag, such as
`foo.bar.Greeting.`, gets no suggestions (`TtCompletion.ExampleNoTag`). The
session-id read-back skips an occurrence of `session-id=` that is followed by `;`
or by the end of the text, and it matches inside other cookies' names and values
(`AuthStore.LookalikeCookieWins`).

## Model

| member | source | states |
|---|---|---|
| TtCompletion.NormalizeBody | src/lib/ttMonaco.ts:3-5 | A list body becomes its lines joined with `"\n"`; a string body is returned unchanged. |
| TtCompletion.BodyLinesRoundTrip | src/lib/ttMonaco.ts:3-5 | Splitting a joined list body at newlines gives back the original lines when no line holds a newline. |
| TtCompletion.NormalizePrefixes | src/lib/ttMonaco.ts:7-9 | A string prefix becomes a one-element list; a list prefix is returned unchanged. |
| TtCompletion.SinglePrefixSpellings | src/lib/ttMonaco.ts:7-9 | An entry with prefix `p` and one with prefix `[p]` give the same suggestions: exactly one, labelled `p`. |
| TtCompletion.Describe | src/lib/ttMonaco.ts:27-28 | detail/documentation is the description when it is non-empty, otherwise the entry's key (`description \|\| key`). |
| TtCompletion.EntrySuggestions | src/lib/ttMonaco.ts:22-31 | An entry yields one suggestion per prefix, in prefix order, each labelled with its prefix. |
| TtCompletion.AllSuggestions | src/lib/ttMonaco.ts:21-32 | The flattened list has exactly as many entries as there are (entry, prefix) pairs in the catalog. |
| TtCompletion.SuggestionAt | src/lib/ttMonaco.ts:21-32 | Prefix `j` of entry `i` sits at position (prefixes of the earlier entries) + `j`: catalog order first, then prefix order. |
| TtCompletion.Origin | src/lib/ttMonaco.ts:21-32 | Every suggestion comes from exactly one (entry, prefix) pair at that position. |
| TtCompletion.InsertTextIsDeclaredBody | src/lib/ttMonaco.ts:22-29 | Every suggestion inserts the normalised body of a catalog entry, verbatim. |
| TtCompletion.InTag | src/lib/ttMonaco.ts:37-39 | The cursor is in a tag only if a `{{` occurs before it, and never right after a `}}`. |
| TtCompletion.InTagIff | src/lib/ttMonaco.ts:37-39 | "Last `{{` after last `}}`" holds iff some `{{` has no `}}` after it; no `{{` at all means not in a tag. |
| TtCompletion.ResolveContext | src/lib/ttMonaco.ts:36-56 | Outside a tag there is nothing. A trimmed text ending in a maximal word run and `.` gives that group prefix. A `.` without a word character before it gives the dotted filter. Otherwise the list is unfiltered. |
| TtCompletion.GetSuggestions | src/lib/ttMonaco.ts:34-57 | The result is always an order-preserving subsequence of the full list. It is empty outside a tag. For a group it is exactly the labels starting with the prefix, and for a bare dot exactly the labels containing `.` (same multiplicities). Otherwise it is the full list. |
| TtCompletion.GroupMembership | src/lib/ttMonaco.ts:45-50 | With a group context, a suggestion is offered iff it is in the list and its label starts with the group prefix. |
| TtCompletion.ExampleGroupPrefix | src/lib/ttMonaco.ts:45-50 | `{{ foo.bar.Greeting.` resolves to the group `Greeting.`, the maximal word run only. |
| TtCompletion.ExampleNoTag | src/lib/ttMonaco.ts:36-43 | Text without `{{`, including `foo.bar.Greeting.`, is not in a tag. |
| TtCompletion.ExampleUnfiltered | src/lib/ttMonaco.ts:56 | `{{ IF x` inside a tag is unfiltered. |
| TtCompletion.ExampleBareDot | src/lib/ttMonaco.ts:52-54 | `{{ x + .` gives the dotted-label filter. |
| TtCompletion.ProvidersFor | src/lib/ttMonaco.ts:59-67 | One provider per listed language, in order, each with trigger characters `{` and `.` and the full list. |
| TtCompletion.RegisterTtCompletion | src/lib/ttMonaco.ts:11-19 | A missing host or a set flag changes nothing. Otherwise: the flag is set; `tt` is declared only if absent; exactly the seven providers are appended after the existing ones. |
| TtCompletion.RegisterTwiceIsOnce | src/lib/ttMonaco.ts:12-15 | A second registration, with any catalog, leaves the host as the first one left it. |
| TtCompletion.LanguagesDistinct | src/lib/ttMonaco.ts:59 | The seven listed languages are distinct. |
| TtCompletion.OneProviderPerLanguage | src/lib/ttMonaco.ts:59-67 | A first registration adds exactly one provider for each listed language and for no other. |
| FilterUtils.FilterValue | src/lib/filterUtils.ts:17-25 | The raw value is kept iff the key is not `settings` and either (`user_id` with a selected user, 0 counting as none) or exact mode holds; otherwise the value is the `-like` wrapper. |
| FilterUtils.SetPath | src/lib/filterUtils.ts:28-37 | A successful placement adds the first path step to the top-level keys and removes none. |
| FilterUtils.SetPathStores | src/lib/filterUtils.ts:28-37 | After placement the value is found at the nested path. |
| FilterUtils.SetPathKeepsSiblings | src/lib/filterUtils.ts:28-37 | Every entry on a path that diverges from the placed one is unchanged. |
| FilterUtils.SetPathFailsOnString | src/lib/filterUtils.ts:31-36 | Placement throws (assigning a property on a string in strict mode) iff a non-empty string sits on a proper prefix of the path. |
| FilterUtils.BuildApiFilters | src/lib/filterUtils.ts:7-44 | An empty filter row gives the empty object. |
| FilterUtils.EmptyValuesIgnored | src/lib/filterUtils.ts:14-15 | Entries with an empty value contribute nothing: the result equals that of the row without them. |
| FilterUtils.UndottedKeySetsEntry | src/lib/filterUtils.ts:38-40 | An undotted key with a value sets exactly that top-level entry and nothing else. |
| FilterUtils.DottedKeyPlacesNested | src/lib/filterUtils.ts:28-37 | A dotted key stores its value at the path of its parts, and entries on diverging paths are intact. |
| FilterUtils.UndottedKeysBuildFlatMap | src/lib/filterUtils.ts:14-41 | Without dotted keys the build never fails, and the result's keys are exactly the keys with non-empty values. |
| FilterUtils.AppendFilterToUrl | src/lib/filterUtils.ts:46-51 | The URL is unchanged iff the filter object is empty; otherwise it is followed by `&filter=` and the encoded payload. |
| FilterUtils.EmptyRowKeepsUrl | src/lib/filterUtils.ts:46-51 | A row of empty values builds `{}` and leaves the URL unchanged. |
| ListResponse.NormalizeListResponse | src/lib/shm_request.ts:44-52 | An array gives itself and its length. An object gives `data` (or `[]`), and `total` is `items` unless null/undefined, else `total` on the same rule, else the data length. |
| ListResponse.ObjectRoundTrip | src/lib/shm_request.ts:49-51 | A normalised result sent back as `{data, items}` normalises to itself: data passes through unfiltered and in order. |
| ListResponse.TotalFallsBackToLength | src/lib/shm_request.ts:46-51 | Without `items` and `total` (or for an array) the total is the number of elements. |
| ListResponse.ZeroCountKept | src/lib/shm_request.ts:50 | `items: 0` is kept, because `??` skips only null and undefined. |
| Dashboard.IsRealPayment | src/lib/dashboardApi.ts:52-57 | A real payment has a payment system, and it is not `""`, `"0"` or `manual`. |
| Dashboard.RealPaymentIff | src/lib/dashboardApi.ts:52-57 | A payment is real iff its payment system is present, not `""`, not `"0"`, and not `manual` in any ASCII letter case. |
| Dashboard.ManualInAnyCase | src/lib/dashboardApi.ts:56 | `MANUAL`, `Manual` and `0` are rejected; `manual2` is accepted. |
| Dashboard.DateKey | src/lib/dashboardApi.ts:66-76 | A key exists only for a date; it is a non-empty prefix of the date and holds no `T`. |
| Dashboard.DateKeyMeaning | src/lib/dashboardApi.ts:66-78 | The day key is a non-empty prefix of the date ending at its first `T`, or (without `T`) at its first space or the end. A missing or empty date, or an empty key, gives no entry. |
| Dashboard.DateKeyBeforeSpace | src/lib/dashboardApi.ts:70-71 | Any non-empty day without `T` or space, followed by a space and a time without `T`, is grouped under the day. |
| Dashboard.DateKeyIsoExample | src/lib/dashboardApi.ts:68-69 | `2024-05-01T10:00` is grouped under `2024-05-01`. |
| Dashboard.DateKeySpaceExample | src/lib/dashboardApi.ts:70-71 | `2024-05-01 10:00` is grouped under `2024-05-01`. |
| Dashboard.DateKeyPlainExample | src/lib/dashboardApi.ts:72-76 | A date without `T` or space is its own key; an empty date gives none. |
| Dashboard.TotalRevenue | src/lib/dashboardApi.ts:60 | Without real payments the revenue is 0. |
| Dashboard.TotalRevenueAppend | src/lib/dashboardApi.ts:52-60 | The revenue of two lists of payments is the sum of their revenues. |
| Dashboard.TotalRevenueStep | src/lib/dashboardApi.ts:52-60 | One more payment adds its amount to the revenue iff it is a real payment, and adds nothing otherwise. |
| Dashboard.PaymentsByDateStep | src/lib/dashboardApi.ts:64-79 | One more payment changes at most the entry of its own day, by its amount. |
| Dashboard.PaymentsByDateSums | src/lib/dashboardApi.ts:62-79 | A day is present iff it has a real payment, and its value is the sum of that day's real payments. |
| Dashboard.Timeline | src/lib/dashboardApi.ts:82-91 | Exactly `period` points, oldest first; point `j` is the day `period-1-j` days back, with that day's sum or 0. |
| Dashboard.QuietDayIsZero | src/lib/dashboardApi.ts:89 | A day without real payments is charted as 0. |
| Dashboard.TallyAllTallies | src/lib/dashboardApi.ts:94-97 | Counting a list one service at a time gives each status once, in order of first appearance, with its number of services. |
| Dashboard.CountByStatus | src/lib/dashboardApi.ts:94-97 | Each status appears once, in order of first appearance, with the number of services in it; the counts add up to the number of services. |
| Dashboard.StatusNamesDistinct | src/lib/dashboardApi.ts:109 | The status list names exactly the statuses present, each once. |
| Dashboard.ItemsOrZero | src/lib/dashboardApi.ts:47 | `res?.items \|\| 0`: a rejected request, an array answer or a missing count gives 0. |
| Dashboard.RecordsOf | src/lib/dashboardApi.ts:48-49 | A rejected request gives no records; otherwise the normalised data. |
| Dashboard.FetchDashboardAnalytics | src/lib/dashboardApi.ts:40-111 | The counts, revenue, timeline and status tallies are each determined by the settled answers as above. |
| Dashboard.AllRejected | src/lib/dashboardApi.ts:44-49 | With every request rejected, all counts are 0, there are no statuses, and the timeline has `period` zero points. |
| ServerModal.CheckText | src/modals/ServerModal.tsx:61 | `!v?.trim()`: null/undefined is blank, a string is filled iff its trim is non-empty, and anything else throws. |
| ServerModal.InitialMode | src/modals/ServerModal.tsx:37-41 | The mode is `cmd` iff `settings.cmd` is truthy (so settings is an object), else `template`. |
| ServerModal.InitialTransport | src/modals/ServerModal.tsx:44 | `transport`, else `server.transport`, else `''`: the first truthy one, `''` when neither is truthy, and always truthy or `''`. |
| ServerModal.Load | src/modals/ServerModal.tsx:32-46 | Opening on a server seeds the form, mode and transport; otherwise nothing changes. |
| ServerModal.HandleChange | src/modals/ServerModal.tsx:48-50 | Exactly one top-level field is set; every other field is kept. |
| ServerModal.HandleSettingsChange | src/modals/ServerModal.tsx:52-57 | `settings` becomes an object with the field set. The other settings entries and top-level fields are kept. A missing or non-object, non-string `settings` starts empty. |
| ServerModal.CleanUp | src/modals/ServerModal.tsx:88-96 | The payload has the form's keys, with every field but `settings` unchanged. An object `settings` loses exactly the key of the other mode; any other `settings` value is left alone. |
| ServerModal.NameCheck | src/modals/ServerModal.tsx:61 | The name passes iff it trims to text; a blank or absent name is the name error, and a non-string one throws. |
| ServerModal.GroupCheck | src/modals/ServerModal.tsx:66 | The group passes iff `server_gid` is neither `null` nor `undefined`; otherwise it is the group error. |
| ServerModal.HostCheck | src/modals/ServerModal.tsx:71 | The host passes iff the transport is `local` or the host trims to text; otherwise a blank host is the host error and a non-string one throws. |
| ServerModal.ModeCheck | src/modals/ServerModal.tsx:76-84 | Template mode passes iff `settings.template_id` is truthy, else the template error. Cmd mode passes iff `settings.cmd` trims to text; a blank command is the command error and a non-string one throws. |
| ServerModal.Validate | src/modals/ServerModal.tsx:61-84 | The chain finds nothing iff the name, group, host (unless `local`) and the mode's setting all pass; what it finds is the answer of one of the four checks. |
| ServerModal.HandleSave | src/modals/ServerModal.tsx:59-98 | A blank name always rejects with the name error. A save implies a filled name, a group id that is not null/undefined, a filled host unless the transport is `local`, a template id in template mode and a filled command in cmd mode. |
| ServerModal.SaveIffValid | src/modals/ServerModal.tsx:61-84 | Save happens iff every check of the chain passes. |
| ServerModal.NameMissingIff | src/modals/ServerModal.tsx:61-64 | Save reports the name error iff the name is absent, `null` or blank. |
| ServerModal.GroupMissingIff | src/modals/ServerModal.tsx:61-69 | Save reports the group error iff the name passes and `server_gid` is `null` or `undefined`. |
| ServerModal.HostMissingIff | src/modals/ServerModal.tsx:61-74 | Save reports the host error iff name and group pass, the transport is not `local`, and the host is absent, `null` or blank. |
| ServerModal.TemplateMissingIff | src/modals/ServerModal.tsx:61-79 | Save reports the template error iff the earlier checks pass, the mode is template and `settings.template_id` is falsy. |
| ServerModal.CmdMissingIff | src/modals/ServerModal.tsx:61-84 | Save reports the command error iff the earlier checks pass, the mode is cmd and `settings.cmd` is absent, `null` or blank. |
| ServerModal.TrimTypeErrorIff | src/modals/ServerModal.tsx:61-84 | Save stops on a TypeError iff the first `.trim()` it reaches is on a non-string: the name, else the host (when checked), else the command in cmd mode. |
| ServerModal.GroupCheckedAfterName | src/modals/ServerModal.tsx:61-69 | The group error is reported only for a form whose name passed. |
| ServerModal.ZeroGroupAccepted | src/modals/ServerModal.tsx:66 | Group id 0 is not missing. |
| ServerModal.LocalHostIgnored | src/modals/ServerModal.tsx:71 | With the `local` transport, any host value gives the same verdict. |
| ServerModal.SavedPayload | src/modals/ServerModal.tsx:88-96 | The payload has the form's keys with every field except `settings` unchanged. `settings` keeps all other entries, has `cmd` only in cmd mode, and has `template_id` only in template mode. |
| ServerModal.CleanUpIdempotent | src/modals/ServerModal.tsx:91-96 | Cleaning up twice removes nothing more. |
| ServerModal.CleanUpKeepsVerdict | src/modals/ServerModal.tsx:76-96 | The clean-up removes only what the mode does not check, so validation gives the same answer. |
| ServerModal.SaveIdempotent | src/modals/ServerModal.tsx:61-96 | Saving the saved payload again in the same mode sends the same payload. |
| ServerModal.LoadAfterSaveKeepsMode | src/modals/ServerModal.tsx:36-41 | A saved payload, opened again, starts in the mode it was saved in. |
| ServerModal.LoadedWithoutTransportNeedsHost | src/modals/ServerModal.tsx:44 | A server opened with no transport of its own or of its group can be saved only with a filled host. |
| ServerModal.LoadedCmdPassesModeCheck | src/modals/ServerModal.tsx:37-41 | A server opened with a non-blank `settings.cmd` starts in cmd mode and passes the mode check. |
| ServerModal.DeleteRequest | src/modals/ServerModal.tsx:110-113 | Delete is requested iff there is a handler and a truthy `server_id`, and it is requested with that id. |
| ServerModal.DeleteNeedsId | src/modals/ServerModal.tsx:110 | A form without `server_id`, such as a new server's, is never deleted. |
| ServerModal.DeleteAfterLoad | src/modals/ServerModal.tsx:32-35 | After opening a server with a truthy id, Delete sends exactly that id. |
| LoginFlow.HandleLoginStep | src/pages/Login.tsx:30-50 | A blank login stays put with an error. Otherwise the passkey check is made with the login and the step becomes password, whether the check answers or throws; a throw clears the passkey state. |
| LoginFlow.Submit | src/pages/Login.tsx:77-123 | An empty password, or an empty code at the code step, gives an error and no request. Past the login step, a non-empty password (and at the code step a non-empty code) always sends the request. The request carries the code only at the code step, and no passkey check is made past the login step. `otpRequired` moves to the code step. A failure at the code step clears only the code. Success signs in. |
| LoginFlow.HandleBack | src/pages/Login.tsx:125-135 | otp → password clearing the code; password → login clearing the password and passkey state; login unchanged. |
| LoginFlow.HandlePasskeyLogin | src/pages/Login.tsx:52-75 | Refused without passkey options. Otherwise: success signs in, `NotAllowedError` is a cancellation, and any other error is a failure with its message or the default. |
| LoginFlow.PasskeyRefusedAtLoginStep | src/pages/Login.tsx:52-56 | On any reachable page at the login step, a passkey sign-in is refused as unavailable. |
| LoginFlow.PasskeyRefusedAfterBack | src/pages/Login.tsx:125-135 | After going back from the password step, a passkey sign-in is refused as unavailable. |
| LoginFlow.PasskeyRefusedAfterFailedCheck | src/pages/Login.tsx:43-56 | When the passkey check throws, the password step holds no options and a passkey sign-in is refused. |
| LoginFlow.SanitizeOtp | src/pages/Login.tsx:226 | Only digits, at most 8, a prefix of the input's digits, and as long as possible. |
| LoginFlow.SanitizeIdempotent | src/pages/Login.tsx:226 | Sanitising a sanitised code changes nothing. |
| LoginFlow.DigitsKept | src/pages/Login.tsx:226 | A code of at most eight digits is kept as typed. |
| LoginFlow.Apply | src/pages/Login.tsx:177-226 | Typing changes only its own field: the login only at the login step, the password only before the code step, and the code (sanitised) only at the code step. The passkey button leaves the page state as it is. |
| LoginFlow.StartInv | src/pages/Login.tsx:18-23 | The initial page satisfies the page invariant. |
| LoginFlow.ApplyKeepsInv | src/pages/Login.tsx:177-226 | Every action keeps the invariant: a code only at the code step, at most eight digits, and no passkey state at the first step. |
| LoginFlow.RunKeepsInv | src/pages/Login.tsx:177-226 | Every sequence of actions keeps the invariant. |
| LoginFlow.BackUndoesLoginStep | src/pages/Login.tsx:125-135 | Back right after the login step restores the page. |
| LoginFlow.OtpSentOnlyAtOtpStep | src/pages/Login.tsx:99 | A request carries the code iff it is made from the code step. |
| AuthStore.TrimWspTrims | src/store/authStore.ts:42 | Trimming a cookie value takes off exactly the spaces and tabs on either side: what is left sits between two all-white-space ends and neither starts nor ends with white space. |
| AuthStore.StoredValue | src/store/authStore.ts:42 | The stored value is the text before the first `;` of what was written, with only the spaces and tabs on either side taken off; it has no `;` and does not end in white space. |
| AuthStore.Write | src/store/authStore.ts:42 | Writing a cookie replaces, in place, the first cookie of that name; with none, the cookie is appended last. Nothing else enters the jar, and every cookie of another name stays. |
| AuthStore.SetSessionCookie | src/store/authStore.ts:41-44 | The `session-id` cookie is written with the stored form of the id and the timestamp becomes now. The first existing `session-id` cookie is replaced in place; with none, the cookie is appended at the end. The user is kept, every other cookie stays, and nothing but that cookie is added. |
| AuthStore.Remove | src/store/authStore.ts:52 | Exactly the cookies of that name are gone; the rest keep their order. |
| AuthStore.SessionMatch | src/store/authStore.ts:46-49 | A found id is non-empty and has no `;`. |
| AuthStore.SessionMatchLeftmost | src/store/authStore.ts:47-48 | Nothing is found iff the key followed by a non-`;` occurs nowhere. Otherwise the id is the text after the leftmost such occurrence, up to `;` or the end. |
| AuthStore.JoinedMatch | src/store/authStore.ts:47 | A match never spans the `"; "` separator. |
| AuthStore.MatchIsFirstCookie | src/store/authStore.ts:47 | On a browser jar the read-back equals searching cookie by cookie, in order. |
| AuthStore.Refresh | src/store/authStore.ts:56-70 | Without a session nothing changes. Without a timestamp the cookie is rewritten and the timestamp set to now. With one, the rewrite happens iff now − timestamp > 180000. |
| AuthStore.SetAuth | src/store/authStore.ts:76-79 | The user is set and the timestamp is now. The first existing `session-id` cookie is replaced in place by the stored form of the id, or it is appended when there is none. The other cookies stay, and nothing else enters the jar. |
| AuthStore.Logout | src/store/authStore.ts:80-83 | No user, no timestamp, and exactly the `session-id` cookie removed. |
| AuthStore.IsAuthenticated | src/store/authStore.ts:84-87 | Refresh, then whether a session id is found. |
| AuthStore.GetSessionId | src/store/authStore.ts:89-92 | Refresh, then the session id found. |
| AuthStore.IsAdmin | src/store/authStore.ts:88 | Without a user there is no admin; an admin's group is 1. |
| AuthStore.RewriteKeepsSession | src/store/authStore.ts:64-67 | Rewriting the cookie with the id just read keeps the jar one a browser can hold, and a session is still found. |
| AuthStore.RefreshKeepsSession | src/store/authStore.ts:56-70 | Refresh never removes the session, and keeps the jar well formed. |
| AuthStore.AuthenticatedIffSession | src/store/authStore.ts:84-87 | `isAuthenticated` holds iff a session was present before the refresh. |
| AuthStore.WrittenIdRead | src/store/authStore.ts:41-49 | With no look-alike cookies, the regular expression reads a written id back from the joined cookie string. |
| AuthStore.WriteThenRead | src/store/authStore.ts:41-49 | With no look-alike cookies, a written id is read back exactly. |
| AuthStore.SignInRoundTrip | src/store/authStore.ts:76-92 | After `setAuth` with a clean id the store is authenticated at any later time, `getSessionId` returns that id, and `isAdmin` holds iff gid is 1. |
| AuthStore.WriteIdempotent | src/store/authStore.ts:41-42 | Writing the same cookie twice is writing it once. |
| AuthStore.LogoutEndsSession | src/store/authStore.ts:80-88 | After `logout` the store is neither authenticated (without look-alike cookies) nor admin. |
| AuthStore.LookalikeNameMatches | src/store/authStore.ts:47 | A cookie whose name is any `s`-free text followed by `session-id` is read as the session, with its own value. |
| AuthStore.LookalikeCookieWins | src/store/authStore.ts:47 | The unanchored expression reads a cookie named `old-session-id` before the real session cookie. |
| BrandingStore.OrDefault | src/store/brandingStore.ts:41-43 | `value \|\| fallback`: a non-empty value, else the fallback. |
| BrandingStore.FromCompany | src/store/brandingStore.ts:38-44 | Each field is the company's value if truthy, else that field's default; the name is never empty. |
| BrandingStore.Fetch | src/store/brandingStore.ts:31-58 | A no-op once loaded. Otherwise the store is loaded and not loading, the title equals the name, and the branding comes from the company on 200 with a record, else exactly the defaults. |
| BrandingStore.Refetch | src/store/brandingStore.ts:60-63 | A refetch always ends loaded and not loading, with the title set to the name. |
| BrandingStore.FetchOnce | src/store/brandingStore.ts:32 | A fetch after a completed fetch does nothing. |
| BrandingStore.RefetchForgets | src/store/brandingStore.ts:60-63 | The refetched branding depends only on the answer, not on the earlier state. |
| BrandingStore.Merge | src/store/brandingStore.ts:68 | `{...current, ...partial}`: each supplied field wins, the others are kept. |
| BrandingStore.Update | src/store/brandingStore.ts:65-97 | The merged branding is posted. It is committed with the title only on 200; otherwise the state is unchanged and an error is raised. Loading ends false. |
| BrandingStore.Reset | src/store/brandingStore.ts:99-128 | The defaults are posted and committed only on 200; otherwise there is an error and no change. Loading ends false. |
| BrandingStore.FullUpdateReplaces | src/store/brandingStore.ts:86-88 | A successful update that supplies every field replaces the branding. |
| BrandingStore.EmptyUpdateKeeps | src/store/brandingStore.ts:68 | An empty update posts and keeps the current branding. |
| BrandingStore.ResetAfterUpdate | src/store/brandingStore.ts:117-119 | A successful reset restores the defaults after any update. |
| BrandingStore.EmptyCompanyIsDefault | src/store/brandingStore.ts:20-24 | A company record with no usable field gives exactly the defaults. |

## Left out

- HTTP, redirects, `shm_request`/`shm_login` and the passkey service are foreign calls. Their answers are parameters of the transitions.
- `Date` arithmetic and date formatting depend on the clock and timezone. The timeline takes the formatted day of "i days ago" as a function parameter, and the stores take "now" as an integer.
- Timers, page-visibility events, React effects and hooks, toasts, JSX rendering and the UI-only components are not modelled.
- The editor host API is abstract. The Monaco calls become a host record with a flag, declared language ids and a provider list. The completion item kind and insert-text rule are constant editor enums and are not modelled. No tokenizer, theme, other delimiter style or provider disposal exists in the code, so none is modelled.
- The snippet catalog's contents are not modelled: the catalog is any list of entries of the snippet shape.
- `JSON.stringify` and `encodeURIComponent` are an opaque `encode` parameter.
- The zustand `persist` serialisation of the auth store is storage plumbing and is not modelled.
- Browser cookie details are not modelled: expiry after `max-age`, the path/domain/SameSite attributes, and the browser's ordering of cookies by path length.
- Dashboard.FetchDashboardAnalytics: amounts are whole numbers. The `parseFloat` of the money text, floating-point rounding and `money` values that are not numbers are not modelled.
- Dashboard.CountByStatus: statuses are listed in order of first appearance. JavaScript lists integer-like object keys (such as a status `"1"`) first in ascending order, and that ordering is not modelled.
- Dashboard.RealPaymentIff: `toLowerCase` is modelled for ASCII letters only. A non-string truthy payment system id, which would throw, is not modelled.
- Dashboard.DateKeyMeaning: dates are strings. A non-string truthy `date`, which would throw, is not modelled.
- FilterUtils.SetPath: property reads on primitives along a path and the special key `__proto__` are not modelled.
- FilterUtils.SetPath: inherited properties are not modelled. A path step named like an inherited member, such as `constructor` or `toString`, finds a truthy function in the source, so the next step is written onto that shared function. The model treats the step as absent and creates a fresh object there.
- TtCompletion.TextBeforeCursor: the editor's column and `slice` count UTF-16 code units, but a Dafny string holds one character per Unicode scalar value. On a line with characters outside the Basic Multilingual Plane before the cursor (an emoji, say, as in `😀{{ a.b` at column 8), the model cuts the line at a different place than the source.
- BrandingStore.FromCompany: company fields are strings or absent. A truthy non-string field, such as `name: 5`, is kept by `||` in the source, while the model has no such value.
- TtCompletion.AllSuggestions: the catalog is taken in the order `Object.entries` yields it. The integer-key-first rule of that order is not modelled.
- ServerModal.CheckText: a `trim` property stored on a form object is not modelled. Numbers are integers, so `NaN` falsiness is not modelled.
- ServerModal.HandleSave: the clean-up's `delete` also reaches the form's own `settings` object, because the payload is a shallow copy. The model returns only the payload.
- ListResponse.NormalizeListResponse: a `null` or `undefined` response, which would throw, is not modelled. Falsy non-array `data` values all count as missing.
- AuthStore.Refresh: the stored timestamp is always a number written by the store. A corrupt `session-updated` text, which `parseInt` would turn into `NaN`, is not modelled.
- LoginFlow.Submit: the `isLoading` flag is not modelled. It is true only while a request is in flight and false when every transition ends.
- FilterUtils.AppendFilterToUrl: filter objects are unordered maps, so the key order that `JSON.stringify` writes into the URL is lost. Two rows with the same entries in a different order give different URLs in the source, for example `{"b":"1","a":"2"}` against `{"a":"2","b":"1"}`. The model's `encode` receives the same map for both rows. The model promises only what holds for every encoding of the same map.
- BrandingStore.Fetch: each store action (`fetchBranding`, `refetchBranding`, `updateBranding`, `resetBranding`) is one atomic step. In the source, `loaded` is set only after the `await`. So two overlapping `fetchBranding` calls both send a request, and a slow first fetch that answers after a `refetchBranding` (for example a 401, which sets the defaults) overwrites the refetched branding. Interleavings of in-flight actions are not modelled, so `BrandingStore.FetchOnce` covers only a fetch that starts after an earlier fetch has completed.
- BrandingStore.Merge: a partial update that carries a field explicitly set to `undefined` is not modelled. An absent field is kept.

=== FILE: auth_store.dfy ===
/**
 The authentication store: the signed-in user, the `session-id` cookie and
 the time the cookie was last written, which the store rewrites at most
 every three minutes while the session is in use.

 The browser's cookie jar is modelled as an ordered list of cookies;
 `document.cookie` reads it as `name=value` pairs joined by `"; "` and a
 write of `name=value; attributes` stores the trimmed value that precedes
 the first `;` (section 5.2 of RFC 6265), replacing the cookie of that name.
 The session id is read back with the regular expression
 `/session-id=([^;]+)/`, which the model follows exactly.
 */
module AuthStore {
  import opened Prelude
  import opened Text

  /** The fields of a user record the store looks at. */
  datatype User = User(userId: int, login: string, gid: int)

  datatype Cookie = Cookie(name: string, value: string)

  type Jar = seq<Cookie>

  const SessionName: string := "session-id"

  /** The text the regular expression looks for. */
  const SessionKey: string := "session-id="

  /** Three minutes, in milliseconds: the least age at which the cookie is rewritten. */
  const UpdateInterval: int := 3 * 60 * 1000

  /** Three days, in seconds: the `max-age` written with the cookie. */
  const CookieMaxAge: int := 60 * 60 * 24 * 3

  /** The white space RFC 6265 trims around a cookie value: space and horizontal tab. */
  predicate IsWsp(c: char) {
    c == ' ' || c == '\t'
  }

  function TrimWsp(s: string): (r: string)
    ensures r == [] || (!IsWsp(r[0]) && !IsWsp(r[|r| - 1]))
    ensures forall k :: 0 <= k < |r| ==> r[k] in s
    ensures (exists k :: 0 <= k < |s| && !IsWsp(s[k])) ==> r != []
    decreases |s|
  {
    if |s| == 0 then []
    else if IsWsp(s[0]) then TrimWsp(s[1..])
    else if IsWsp(s[|s| - 1]) then TrimWsp(s[..|s| - 1])
    else s
  }

  predicate AllWsp(s: string) {
    forall k :: 0 <= k < |s| ==> IsWsp(s[k])
  }

  /** `s` is `r` with only white space before position `i` and after `r`. */
  predicate TrimmedAt(r: string, s: string, i: int) {
    0 <= i <= |s| - |r| && s[i..i + |r|] == r && AllWsp(s[..i]) && AllWsp(s[i + |r|..])
  }

  /** `r` is `s` with the white space on either side taken off, and nothing else. */
  predicate TrimmedFrom(r: string, s: string) {
    && (r == [] || (!IsWsp(r[0]) && !IsWsp(r[|r| - 1])))
    && exists i :: 0 <= i <= |s| && TrimmedAt(r, s, i)
  }

  lemma PadFront(r: string, s: string, i: int)
    requires |s| > 0 && IsWsp(s[0]) && TrimmedAt(r, s[1..], i)
    ensures TrimmedAt(r, s, i + 1)
  {
    var t := s[1..];
    assert s[i + 1..i + 1 + |r|] == t[i..i + |r|];
    assert s[..i + 1] == [s[0]] + t[..i];
    assert s[i + 1 + |r|..] == t[i + |r|..];
  }

  lemma PadBack(r: string, s: string, i: int)
    requires |s| > 0 && IsWsp(s[|s| - 1]) && TrimmedAt(r, s[..|s| - 1], i)
    ensures TrimmedAt(r, s, i)
  {
    var t := s[..|s| - 1];
    assert s[i..i + |r|] == t[i..i + |r|];
    assert s[..i] == t[..i];
    assert s[i + |r|..] == t[i + |r|..] + [s[|s| - 1]];
  }

  lemma {:induction false} TrimWspTrims(s: string)
    ensures TrimmedFrom(TrimWsp(s), s)
    decreases |s|
  {
    var r := TrimWsp(s);
    if |s| == 0 {
      assert TrimmedAt(r, s, 0);
    } else if IsWsp(s[0]) {
      TrimWspTrims(s[1..]);
      var i :| 0 <= i <= |s| - 1 && TrimmedAt(r, s[1..], i);
      PadFront(r, s, i);
    } else if IsWsp(s[|s| - 1]) {
      TrimWspTrims(s[..|s| - 1]);
      var i :| 0 <= i <= |s| - 1 && TrimmedAt(r, s[..|s| - 1], i);
      PadBack(r, s, i);
    } else {
      assert s[0..|s|] == s;
      assert TrimmedAt(r, s, 0);
    }
  }

  /**
   The value a browser stores for `session-id=<sessionId>; path=/; ...`:
   the text before the first `;`, with the white space on either side taken off.
   */
  function StoredValue(sessionId: string): (r: string)
    ensures ';' !in r
    ensures r == [] || !IsWsp(r[|r| - 1])
    ensures TrimmedFrom(r, BeforeFirst(sessionId, ';'))
  {
    var before := BeforeFirst(sessionId, ';');
    TrimWspTrims(before);
    TrimWsp(before)
  }

  /** A cookie as the browser holds it: no `;` anywhere and no trailing white space in the value. */
  predicate WellFormed(c: Cookie) {
    && ';' !in c.name && ';' !in c.value
    && (c.value == [] || !IsWsp(c.value[|c.value| - 1]))
  }

  predicate WellFormedJar(jar: Jar) {
    forall i :: 0 <= i < |jar| ==> WellFormed(jar[i])
  }

  /** One cookie as `document.cookie` shows it. */
  function Piece(c: Cookie): string {
    c.name + "=" + c.value
  }

  /** `document.cookie`: the cookies in order, joined by `"; "`. */
  function CookieString(jar: Jar): string
    decreases |jar|
  {
    if |jar| == 0 then []
    else if |jar| == 1 then Piece(jar[0])
    else Piece(jar[0]) + "; " + CookieString(jar[1..])
  }

  /** The position of the first cookie named `name`, or -1 when there is none. */
  function FirstNamed(jar: Jar, name: string): (k: int)
    ensures -1 <= k < |jar|
    ensures k == -1 <==> forall i :: 0 <= i < |jar| ==> jar[i].name != name
    ensures k >= 0 ==> jar[k].name == name && forall i :: 0 <= i < k ==> jar[i].name != name
    decreases |jar|
  {
    if |jar| == 0 then -1
    else if jar[0].name == name then 0
    else
      var k := FirstNamed(jar[1..], name);
      if k == -1 then -1 else k + 1
  }

  /** Storing a cookie: the cookie of that name gets the value in place, or a new cookie goes last. */
  function Write(jar: Jar, name: string, value: string): (r: Jar)
    ensures FirstNamed(jar, name) == -1 ==> r == jar + [Cookie(name, value)]
    ensures FirstNamed(jar, name) >= 0 ==> r == jar[FirstNamed(jar, name) := Cookie(name, value)]
    ensures forall c :: c in r ==> c in jar || c == Cookie(name, value)
    ensures |r| == |jar| || |r| == |jar| + 1
    ensures Cookie(name, value) in r
    ensures forall c :: c in r && c.name != name ==> c in jar
    ensures forall c :: c in jar && c.name != name ==> c in r
    decreases |jar|
  {
    var r :=
      if |jar| == 0 then [Cookie(name, value)]
      else if jar[0].name == name then [Cookie(name, value)] + jar[1..]
      else (
        var rest := Write(jar[1..], name, value);
        ConsPlacement(jar, name, Cookie(name, value), rest);
        [jar[0]] + rest);
    PlacementKeepsOthers(jar, name, Cookie(name, value), r);
    r
  }

  /** `r` is `jar` with `c` in place of the first cookie named `name`, or with `c` added last. */
  predicate Placed(jar: Jar, name: string, c: Cookie, r: Jar) {
    var k := FirstNamed(jar, name);
    if k == -1 then r == jar + [c] else r == jar[k := c]
  }

  lemma ConsPlacement(jar: Jar, name: string, c: Cookie, rest: Jar)
    requires |jar| > 0 && jar[0].name != name && Placed(jar[1..], name, c, rest)
    ensures Placed(jar, name, c, [jar[0]] + rest)
  {
    var k := FirstNamed(jar[1..], name);
    if k == -1 {
      assert [jar[0]] + (jar[1..] + [c]) == jar + [c];
    } else {
      assert [jar[0]] + jar[1..][k := c] == jar[k + 1 := c];
    }
  }

  lemma PlacementKeepsOthers(jar: Jar, name: string, c: Cookie, r: Jar)
    requires c.name == name && Placed(jar, name, c, r)
    ensures forall d :: d in r ==> d in jar || d == c
    ensures |r| == |jar| || |r| == |jar| + 1
    ensures c in r
    ensures forall d :: d in r && d.name != name ==> d in jar
    ensures forall d :: d in jar && d.name != name ==> d in r
  {
    var k := FirstNamed(jar, name);
    if k == -1 {
      assert r[|jar|] == c;
    } else {
      assert r[k] == c;
      forall d | d in r
        ensures d in jar || d == c
      {
        var j :| 0 <= j < |r| && r[j] == d;
        if j != k {
          assert d == jar[j];
        }
      }
      forall d | d in jar && d.name != name
        ensures d in r
      {
        var j :| 0 <= j < |jar| && jar[j] == d;
        assert r[j] == d;
      }
    }
  }

  /** A cookie written with `max-age=0`: every cookie of that name is gone. */
  function Remove(jar: Jar, name: string): (r: Jar)
    ensures forall c :: c in r <==> c in jar && c.name != name
    ensures IsSubsequence(r, jar)
    decreases |jar|
  {
    if |jar| == 0 then []
    else if jar[0].name == name then
      var rest := Remove(jar[1..], name);
      SubsequenceDropHead(rest, jar);
      rest
    else [jar[0]] + Remove(jar[1..], name)
  }

  lemma SubsequenceDropHead<T>(a: seq<T>, b: seq<T>)
    requires |b| > 0 && IsSubsequence(a, b[1..])
    ensures IsSubsequence(a, b)
  {
  }

  /** The regular expression matches at `i`: the key, then a character other than `;`. */
  predicate MatchesAt(s: string, i: int) {
    0 <= i && i + |SessionKey| < |s| && OccursAt(s, SessionKey, i) && s[i + |SessionKey|] != ';'
  }

  /**
   `s.match(/session-id=([^;]+)/)?.[1]`: the leftmost place where the key is
   followed by at least one character other than `;`, and the run of such
   characters that follows it.
   */
  function SessionMatch(s: string): (r: Option<string>)
    ensures r.Some? ==> r.value != [] && ';' !in r.value
    decreases |s|
  {
    if |s| <= |SessionKey| then None
    else if StartsWith(s, SessionKey) && s[|SessionKey|] != ';' then
      var tail := s[|SessionKey|..];
      assert tail[0] != ';';
      Some(BeforeFirst(tail, ';'))
    else SessionMatch(s[1..])
  }

  /** `i` is the leftmost place the expression matches. */
  predicate LeftmostAt(s: string, i: int) {
    MatchesAt(s, i) && forall j :: 0 <= j < i ==> !MatchesAt(s, j)
  }

  /** What the regular expression finds: exactly the leftmost match, and the text after it up to `;`. */
  lemma {:induction false} SessionMatchLeftmost(s: string)
    ensures SessionMatch(s).None? <==> forall i :: 0 <= i < |s| ==> !MatchesAt(s, i)
    ensures SessionMatch(s).Some? ==>
      exists i :: LeftmostAt(s, i) && SessionMatch(s).value == BeforeFirst(s[i + |SessionKey|..], ';')
    decreases |s|
  {
    if |s| <= |SessionKey| {
      assert forall i :: 0 <= i < |s| ==> !MatchesAt(s, i);
    } else if StartsWith(s, SessionKey) && s[|SessionKey|] != ';' {
      assert LeftmostAt(s, 0);
    } else {
      var t := s[1..];
      SessionMatchLeftmost(t);
      assert !MatchesAt(s, 0);
      assert SessionMatch(s) == SessionMatch(t);
      if SessionMatch(t).Some? {
        var i :| LeftmostAt(t, i) && SessionMatch(t).value == BeforeFirst(t[i + |SessionKey|..], ';');
        LeftmostShift(s, i);
        assert t[i + |SessionKey|..] == s[i + 1 + |SessionKey|..];
      } else {
        forall i | 0 <= i < |s|
          ensures !MatchesAt(s, i)
        {
          if i > 0 {
            MatchShift(s, i - 1);
          }
        }
      }
    }
  }

  /** A leftmost match after the first character is, one place further on, a leftmost match of the whole text when the text does not match at 0. */
  lemma LeftmostShift(s: string, i: int)
    requires |s| > 0 && !MatchesAt(s, 0) && LeftmostAt(s[1..], i)
    ensures LeftmostAt(s, i + 1)
  {
    MatchShift(s, i);
    forall j | 0 < j < i + 1
      ensures !MatchesAt(s, j)
    {
      MatchShift(s, j - 1);
    }
  }

  /** Dropping the first character moves every match one place to the left. */
  lemma MatchShift(s: string, i: int)
    requires 0 <= i < |s| - 1
    ensures MatchesAt(s[1..], i) <==> MatchesAt(s, i + 1)
  {
    if i + |SessionKey| < |s| - 1 {
      assert s[1..][i..i + |SessionKey|] == s[i + 1..i + 1 + |SessionKey|];
    }
  }

  /** A first character other than `s` cannot start a match. */
  lemma SkipChar(c: char, rest: string)
    requires c != 's'
    ensures SessionMatch([c] + rest) == SessionMatch(rest)
  {
    var s := [c] + rest;
    assert s[1..] == rest;
    if |s| > |SessionKey| {
      assert s[0] != SessionKey[0];
      assert !StartsWith(s, SessionKey);
    }
  }

  /** A match cannot run across a `"; "` separator: the match of a joined text is the first part's, else the second's. */
  lemma {:induction false} JoinedMatch(t: string, rest: string)
    requires ';' !in t
    ensures SessionMatch(t + "; " + rest) == if SessionMatch(t).Some? then SessionMatch(t) else SessionMatch(rest)
    decreases |t|
  {
    var s := t + "; " + rest;
    var n := |SessionKey|;
    if |t| == 0 {
      assert s == [';'] + ([' '] + rest);
      SkipChar(';', [' '] + rest);
      SkipChar(' ', rest);
    } else if |s| <= n {
    } else if StartsWith(s, SessionKey) && s[n] != ';' {
      assert s[|t|] == ';';
      assert |t| > n;
      assert t[..n] == s[..n];
      assert t[n] == s[n];
      assert s[n..] == t[n..] + "; " + rest;
      assert (t[n..] + "; " + rest)[|t| - n] == ';';
      assert ';' !in (t[n..] + "; " + rest)[..|t| - n] by {
        assert (t[n..] + "; " + rest)[..|t| - n] == t[n..];
      }
      IndexOfCharAt(s[n..], ';', |t| - n);
      assert BeforeFirst(s[n..], ';') == t[n..];
      assert BeforeFirst(t[n..], ';') == t[n..];
    } else {
      if |t| > n {
        assert t[..n] == s[..n];
        assert t[n] == s[n];
      }
      assert s[1..] == t[1..] + "; " + rest;
      JoinedMatch(t[1..], rest);
    }
  }

  /** The first cookie, in jar order, in whose `name=value` text the regular expression matches. */
  function FirstMatch(jar: Jar): (r: Option<string>)
    ensures r.Some? ==> r.value != [] && ';' !in r.value
    decreases |jar|
  {
    if |jar| == 0 then None
    else if SessionMatch(Piece(jar[0])).Some? then SessionMatch(Piece(jar[0]))
    else FirstMatch(jar[1..])
  }

  /** On a jar the browser can hold, reading the session id is searching cookie by cookie. */
  lemma {:induction false} MatchIsFirstCookie(jar: Jar)
    requires WellFormedJar(jar)
    ensures SessionMatch(CookieString(jar)) == FirstMatch(jar)
    decreases |jar|
  {
    if |jar| >= 2 {
      var p := Piece(jar[0]);
      assert WellFormed(jar[0]);
      assert ';' !in p;
      JoinedMatch(p, CookieString(jar[1..]));
      MatchIsFirstCookie(jar[1..]);
    }
  }

  /** The session cookie itself: its value is found whenever it is not empty. */
  lemma SessionPieceMatches(v: string)
    requires v != [] && ';' !in v
    ensures SessionMatch(Piece(Cookie(SessionName, v))) == Some(v)
  {
    var s := Piece(Cookie(SessionName, v));
    assert s == SessionKey + v;
    assert StartsWith(s, SessionKey);
    assert s[|SessionKey|..] == v;
  }

  /** What the regular expression captures inside one cookie runs to the end of that cookie. */
  lemma {:induction false} MatchEndsPiece(t: string)
    requires ';' !in t && SessionMatch(t).Some?
    ensures EndsWith(t, SessionMatch(t).value)
    decreases |t|
  {
    if StartsWith(t, SessionKey) && t[|SessionKey|] != ';' {
      assert BeforeFirst(t[|SessionKey|..], ';') == t[|SessionKey|..];
    } else {
      MatchEndsPiece(t[1..]);
      var v := SessionMatch(t).value;
      assert t[1..][|t| - 1 - |v|..] == t[|t| - |v|..];
    }
  }

  /** Whether the regular expression finds a session id in the jar. */
  function SessionOf(jar: Jar): Option<string> {
    SessionMatch(CookieString(jar))
  }

  /** The store: the user, the cookie jar and the `session-updated` timestamp (milliseconds). */
  datatype AuthState = AuthState(user: Option<User>, jar: Jar, updated: Option<int>)

  /** `setSessionCookie`: the cookie is (re)written and the timestamp set to now. */
  function SetSessionCookie(st: AuthState, sessionId: string, now: int): (r: AuthState)
    ensures r.user == st.user && r.updated == Some(now)
    ensures Cookie(SessionName, StoredValue(sessionId)) in r.jar
    ensures FirstNamed(st.jar, SessionName) == -1 ==> r.jar == st.jar + [Cookie(SessionName, StoredValue(sessionId))]
    ensures FirstNamed(st.jar, SessionName) >= 0 ==>
      r.jar == st.jar[FirstNamed(st.jar, SessionName) := Cookie(SessionName, StoredValue(sessionId))]
    ensures forall c :: c in r.jar ==> c in st.jar || c == Cookie(SessionName, StoredValue(sessionId))
    ensures forall c :: c in st.jar && c.name != SessionName ==> c in r.jar
    ensures |r.jar| == |st.jar| || |r.jar| == |st.jar| + 1
  {
    st.(jar := Write(st.jar, SessionName, StoredValue(sessionId)), updated := Some(now))
  }

  /**
   `refreshSessionCookie`: without a session nothing happens; otherwise the
   cookie is rewritten with the id just read when there is no timestamp or
   the timestamp is more than `UpdateInterval` old.
   */
  function Refresh(st: AuthState, now: int): (r: AuthState)
    ensures SessionOf(st.jar).None? ==> r == st
    ensures SessionOf(st.jar).Some? && st.updated.None? ==>
      r == SetSessionCookie(st, SessionOf(st.jar).value, now)
    ensures SessionOf(st.jar).Some? && st.updated.Some? ==>
      r == if now - st.updated.value > UpdateInterval then SetSessionCookie(st, SessionOf(st.jar).value, now) else st
    ensures r.user == st.user
  {
    match SessionOf(st.jar)
    case None => st
    case Some(id) =>
      if st.updated.None? || now - st.updated.value > UpdateInterval then SetSessionCookie(st, id, now)
      else st
  }

  /** `setAuth`: the user is stored and the session cookie written. */
  function SetAuth(st: AuthState, user: User, sessionId: string, now: int): (r: AuthState)
    ensures r.user == Some(user) && r.updated == Some(now)
    ensures Cookie(SessionName, StoredValue(sessionId)) in r.jar
    ensures FirstNamed(st.jar, SessionName) == -1 ==> r.jar == st.jar + [Cookie(SessionName, StoredValue(sessionId))]
    ensures FirstNamed(st.jar, SessionName) >= 0 ==>
      r.jar == st.jar[FirstNamed(st.jar, SessionName) := Cookie(SessionName, StoredValue(sessionId))]
    ensures forall c :: c in r.jar ==> c in st.jar || c == Cookie(SessionName, StoredValue(sessionId))
    ensures forall c :: c in st.jar && c.name != SessionName ==> c in r.jar
  {
    SetSessionCookie(st.(user := Some(user)), sessionId, now)
  }

  /** `logout`: no user, no session cookie, no timestamp; the other cookies stay. */
  function Logout(st: AuthState): (r: AuthState)
    ensures r.user.None? && r.updated.None?
    ensures forall c :: c in r.jar <==> c in st.jar && c.name != SessionName
  {
    AuthState(None, Remove(st.jar, SessionName), None)
  }

  /** `isAuthenticated`: refresh, then whether a session id is found. */
  function IsAuthenticated(st: AuthState, now: int): (r: (AuthState, bool))
    ensures r.0 == Refresh(st, now)
    ensures r.1 <==> SessionOf(r.0.jar).Some?
  {
    var st' := Refresh(st, now);
    (st', SessionOf(st'.jar).Some?)
  }

  /** `getSessionId`: refresh, then the session id found, if any. */
  function GetSessionId(st: AuthState, now: int): (r: (AuthState, Option<string>))
    ensures r.0 == Refresh(st, now)
    ensures r.1 == SessionOf(r.0.jar)
  {
    var st' := Refresh(st, now);
    (st', SessionOf(st'.jar))
  }

  /** `isAdmin`: a user of group 1. */
  predicate IsAdmin(st: AuthState)
    ensures st.user.None? ==> !IsAdmin(st)
    ensures IsAdmin(st) ==> st.user.value.gid == 1
  {
    st.user.Some? && st.user.value.gid == 1
  }

  /** Writing cookies keeps the jar one the browser can hold. */
  lemma WriteWellFormed(jar: Jar, name: string, value: string)
    requires WellFormedJar(jar) && WellFormed(Cookie(name, value))
    ensures WellFormedJar(Write(jar, name, value))
  {
    var r := Write(jar, name, value);
    forall i | 0 <= i < |r|
      ensures WellFormed(r[i])
    {
      assert r[i] in r;
    }
  }

  /** After writing a non-empty session value the regular expression finds a session. */
  lemma {:induction false} WrittenSessionFound(jar: Jar, v: string)
    requires WellFormedJar(jar) && v != [] && ';' !in v
    ensures FirstMatch(Write(jar, SessionName, v)).Some?
    decreases |jar|
  {
    SessionPieceMatches(v);
    if |jar| > 0 && jar[0].name != SessionName {
      WrittenSessionFound(jar[1..], v);
      assert Write(jar, SessionName, v)[1..] == Write(jar[1..], SessionName, v);
    }
  }

  /** In a jar the browser can hold, the id found ends with a character that is not white space. */
  lemma {:induction false} FoundIdEndsSolid(jar: Jar)
    requires WellFormedJar(jar) && FirstMatch(jar).Some?
    ensures !IsWsp(FirstMatch(jar).value[|FirstMatch(jar).value| - 1])
    decreases |jar|
  {
    var p := Piece(jar[0]);
    assert WellFormed(jar[0]);
    if SessionMatch(p).Some? {
      MatchEndsPiece(p);
      var v := SessionMatch(p).value;
      assert v[|v| - 1] == p[|p| - 1];
    } else {
      FoundIdEndsSolid(jar[1..]);
    }
  }

  /** An id ending in a character that is not white space is stored as a non-empty value. */
  lemma StoredSolid(id: string)
    requires id != [] && ';' !in id && !IsWsp(id[|id| - 1])
    ensures StoredValue(id) != []
  {
    assert BeforeFirst(id, ';') == id;
    assert !IsWsp(id[|id| - 1]);
  }

  /** Rewriting the cookie with the id just found keeps the jar well formed and a session found. */
  lemma RewriteKeepsSession(jar: Jar, id: string)
    requires WellFormedJar(jar) && FirstMatch(jar) == Some(id)
    ensures WellFormedJar(Write(jar, SessionName, StoredValue(id)))
    ensures SessionOf(Write(jar, SessionName, StoredValue(id))).Some?
  {
    FoundIdEndsSolid(jar);
    StoredSolid(id);
    var v := StoredValue(id);
    WriteWellFormed(jar, SessionName, v);
    WrittenSessionFound(jar, v);
    MatchIsFirstCookie(Write(jar, SessionName, v));
  }

  /** Refreshing never removes the session: a session is found afterwards exactly when one was found before. */
  lemma RefreshKeepsSession(st: AuthState, now: int)
    requires WellFormedJar(st.jar)
    ensures SessionOf(Refresh(st, now).jar).Some? <==> SessionOf(st.jar).Some?
    ensures WellFormedJar(Refresh(st, now).jar)
  {
    MatchIsFirstCookie(st.jar);
    var r := Refresh(st, now);
    if r != st {
      var id := SessionOf(st.jar).value;
      assert r.jar == Write(st.jar, SessionName, StoredValue(id));
      RewriteKeepsSession(st.jar, id);
    }
  }

  /** `isAuthenticated` answers whether a session was there before the refresh. */
  lemma AuthenticatedIffSession(st: AuthState, now: int)
    requires WellFormedJar(st.jar)
    ensures IsAuthenticated(st, now).1 <==> SessionOf(st.jar).Some?
  {
    RefreshKeepsSession(st, now);
  }

  /** When no other cookie looks like a session to the regular expression, a written id is read back. */
  lemma {:induction false} WriteThenRead(jar: Jar, v: string)
    requires WellFormedJar(jar) && v != [] && ';' !in v
    requires forall i :: 0 <= i < |jar| && jar[i].name != SessionName ==> SessionMatch(Piece(jar[i])).None?
    ensures FirstMatch(Write(jar, SessionName, v)) == Some(v)
    decreases |jar|
  {
    SessionPieceMatches(v);
    if |jar| > 0 && jar[0].name != SessionName {
      WriteThenRead(jar[1..], v);
      assert Write(jar, SessionName, v)[1..] == Write(jar[1..], SessionName, v);
    }
  }

  /** An id without `;` and without surrounding white space is stored as it is. */
  lemma StoredAsIs(sessionId: string)
    requires sessionId != [] && ';' !in sessionId && !IsWsp(sessionId[0]) && !IsWsp(sessionId[|sessionId| - 1])
    ensures StoredValue(sessionId) == sessionId
  {
    assert BeforeFirst(sessionId, ';') == sessionId;
  }

  /** Right after `setAuth` the regular expression finds exactly the id just stored. */
  lemma SetAuthFindsId(st: AuthState, user: User, sessionId: string, now: int)
    requires WellFormedJar(st.jar)
    requires forall i :: 0 <= i < |st.jar| && st.jar[i].name != SessionName ==> SessionMatch(Piece(st.jar[i])).None?
    requires sessionId != [] && ';' !in sessionId && !IsWsp(sessionId[0]) && !IsWsp(sessionId[|sessionId| - 1])
    ensures SetAuth(st, user, sessionId, now).jar == Write(st.jar, SessionName, sessionId)
    ensures SessionOf(SetAuth(st, user, sessionId, now).jar) == Some(sessionId)
  {
    StoredAsIs(sessionId);
    var s := SetAuth(st, user, sessionId, now);
    assert s.jar == Write(st.jar, SessionName, StoredValue(sessionId));
    WrittenIdRead(st.jar, sessionId);
  }

  /** In a jar where no other cookie looks like a session, the regular expression reads back a written id. */
  lemma WrittenIdRead(jar: Jar, v: string)
    requires WellFormedJar(jar) && v != [] && ';' !in v && !IsWsp(v[|v| - 1])
    requires forall i :: 0 <= i < |jar| && jar[i].name != SessionName ==> SessionMatch(Piece(jar[i])).None?
    ensures SessionOf(Write(jar, SessionName, v)) == Some(v)
  {
    WriteThenRead(jar, v);
    WriteWellFormed(jar, SessionName, v);
    MatchIsFirstCookie(Write(jar, SessionName, v));
  }

  /**
   Signing in with an id that has no `;` and no surrounding white space,
   in a jar where no other cookie looks like a session: the store is
   authenticated, and `getSessionId` gives that id back, at any later time.
   */
  lemma SignInRoundTrip(st: AuthState, user: User, sessionId: string, now: int, later: int)
    requires WellFormedJar(st.jar)
    requires forall i :: 0 <= i < |st.jar| && st.jar[i].name != SessionName ==> SessionMatch(Piece(st.jar[i])).None?
    requires sessionId != [] && ';' !in sessionId && !IsWsp(sessionId[0]) && !IsWsp(sessionId[|sessionId| - 1])
    ensures IsAuthenticated(SetAuth(st, user, sessionId, now), later).1
    ensures GetSessionId(SetAuth(st, user, sessionId, now), later).1 == Some(sessionId)
    ensures IsAdmin(SetAuth(st, user, sessionId, now)) <==> user.gid == 1
  {
    SetAuthFindsId(st, user, sessionId, now);
    StoredAsIs(sessionId);
    var s := SetAuth(st, user, sessionId, now);
    var r := Refresh(s, later);
    if r != s {
      assert r.jar == Write(s.jar, SessionName, sessionId);
      WriteIdempotent(st.jar, SessionName, sessionId);
    }
    assert r.jar == s.jar;
  }

  /** Writing the value a cookie already has, after writing it, changes nothing. */
  lemma {:induction false} WriteIdempotent(jar: Jar, name: string, value: string)
    ensures Write(Write(jar, name, value), name, value) == Write(jar, name, value)
    decreases |jar|
  {
    if |jar| > 0 && jar[0].name != name {
      WriteIdempotent(jar[1..], name, value);
    }
  }

  /** After `logout` no cookie is named `session-id`, and no session is found unless another cookie looks like one. */
  lemma LogoutEndsSession(st: AuthState, now: int)
    requires WellFormedJar(st.jar)
    requires forall i :: 0 <= i < |st.jar| && st.jar[i].name != SessionName ==> SessionMatch(Piece(st.jar[i])).None?
    ensures !IsAuthenticated(Logout(st), now).1
    ensures !IsAdmin(Logout(st))
  {
    var jar := Remove(st.jar, SessionName);
    assert WellFormedJar(jar) by {
      forall i | 0 <= i < |jar|
        ensures WellFormed(jar[i])
      {
        assert jar[i] in jar;
      }
    }
    NoMatchLeft(jar, st.jar);
    MatchIsFirstCookie(jar);
  }

  lemma {:induction false} NoMatchLeft(jar: Jar, before: Jar)
    requires forall c :: c in jar ==> c in before && c.name != SessionName
    requires forall i :: 0 <= i < |before| && before[i].name != SessionName ==> SessionMatch(Piece(before[i])).None?
    ensures FirstMatch(jar).None?
    decreases |jar|
  {
    if |jar| > 0 {
      assert jar[0] in jar;
      var k :| 0 <= k < |before| && before[k] == jar[0];
      NoMatchLeft(jar[1..], before);
    }
  }

  /** Text without an `s` in front of a string does not change what the expression finds. */
  lemma {:induction false} SkipPrefix(pre: string, rest: string)
    requires 's' !in pre
    ensures SessionMatch(pre + rest) == SessionMatch(rest)
    decreases |pre|
  {
    if pre != [] {
      SkipPrefix(pre[1..], rest);
      assert pre + rest == [pre[0]] + (pre[1..] + rest);
      SkipChar(pre[0], pre[1..] + rest);
    } else {
      assert pre + rest == rest;
    }
  }

  /** A cookie whose name is any `s`-free text followed by `session-id` is read as the session. */
  lemma LookalikeNameMatches(pre: string, v: string)
    requires 's' !in pre && v != [] && ';' !in v
    ensures SessionMatch(Piece(Cookie(pre + SessionName, v))) == Some(v)
  {
    assert Piece(Cookie(pre + SessionName, v)) == pre + Piece(Cookie(SessionName, v));
    SkipPrefix(pre, Piece(Cookie(SessionName, v)));
    SessionPieceMatches(v);
  }

  /** The regular expression finds a session id inside a cookie named `old-session-id`. */
  lemma LookalikePieceMatches()
    ensures SessionMatch(Piece(Cookie("old-session-id", "x"))) == Some("x")
  {
    assert "old-session-id" == "old-" + SessionName;
    LookalikeNameMatches("old-", "x");
  }

  /** The quirk of the unanchored expression: a cookie whose name ends in `session-id` is read as the session. */
  lemma LookalikeCookieWins()
    ensures SessionOf([Cookie("old-session-id", "x"), Cookie(SessionName, "y")]) == Some("x")
  {
    var jar := [Cookie("old-session-id", "x"), Cookie(SessionName, "y")];
    assert WellFormedJar(jar) by {
      assert WellFormed(jar[0]) && WellFormed(jar[1]);
    }
    MatchIsFirstCookie(jar);
    LookalikePieceMatches();
    assert FirstMatch(jar) == Some("x");
  }
}

=== FILE: branding_store.dfy ===
/**
 The branding store: the company name, logo and colour shown by the admin
 interface, loaded once from the company settings, and changed or reset
 through the admin configuration endpoint.  The answers of the API are
 inputs of each transition; `document.title` is a field of the state.
 */
module BrandingStore {
  import opened Prelude

  datatype Branding = Branding(name: string, logoUrl: string, primaryColor: string)

  const DefaultBranding := Branding("SHM Admin", "", "#22d3ee")

  datatype BrandingState = BrandingState(branding: Branding, loading: bool, loaded: bool, title: string)

  /** The store before any request; the page title is whatever the page had. */
  function Initial(title: string): BrandingState {
    BrandingState(DefaultBranding, false, false, title)
  }

  /** The first company record; a field is None when missing or not a string. */
  datatype Company = Company(name: Option<string>, logoUrl: Option<string>, primaryColor: Option<string>)

  /** The answer to `shm/v1/company`: a status and the first record, if any, or an exception. */
  datatype FetchOutcome = Responded(status: int, first: Option<Company>) | FetchThrew

  /** The answer to a POST of `shm/v1/admin/config`. */
  datatype PostOutcome = Posted(status: int) | PostThrew

  /** `value || fallback` on an optional string. */
  function OrDefault(value: Option<string>, fallback: string): (r: string)
    ensures value.Some? && value.value != [] ==> r == value.value
    ensures value.None? || value.value == [] ==> r == fallback
  {
    if value.Some? && value.value != [] then value.value else fallback
  }

  /** The branding a company record gives: each truthy field, else the default of that field. */
  function FromCompany(c: Company): (r: Branding)
    ensures r.name == OrDefault(c.name, DefaultBranding.name)
    ensures r.logoUrl == OrDefault(c.logoUrl, DefaultBranding.logoUrl)
    ensures r.primaryColor == OrDefault(c.primaryColor, DefaultBranding.primaryColor)
    ensures r.name != []
  {
    Branding(
      OrDefault(c.name, DefaultBranding.name),
      OrDefault(c.logoUrl, DefaultBranding.logoUrl),
      OrDefault(c.primaryColor, DefaultBranding.primaryColor))
  }

  /**
   `fetchBranding`: nothing once loaded; otherwise the company's branding on
   a 200 answer with a record, else the defaults; the store is then loaded,
   not loading, and the title is the branding's name.
   */
  function Fetch(st: BrandingState, outcome: FetchOutcome): (r: BrandingState)
    ensures st.loaded ==> r == st
    ensures !st.loaded ==> r.loaded && !r.loading && r.title == r.branding.name
    ensures !st.loaded && outcome.Responded? && outcome.status == 200 && outcome.first.Some? ==>
      r.branding == FromCompany(outcome.first.value)
    ensures !st.loaded && !(outcome.Responded? && outcome.status == 200 && outcome.first.Some?) ==>
      r.branding == DefaultBranding
  {
    if st.loaded then st
    else
      var b := match outcome
        case Responded(status, first) =>
          if status == 200 && first.Some? then FromCompany(first.value) else DefaultBranding
        case FetchThrew => DefaultBranding;
      BrandingState(b, false, true, b.name)
  }

  /** `refetchBranding`: clear `loaded`, then fetch. */
  function Refetch(st: BrandingState, outcome: FetchOutcome): (r: BrandingState)
    ensures r.loaded && !r.loading && r.title == r.branding.name
  {
    Fetch(st.(loaded := false), outcome)
  }

  /** A second fetch does nothing. */
  lemma FetchOnce(st: BrandingState, first: FetchOutcome, second: FetchOutcome)
    ensures Fetch(Fetch(st, first), second) == Fetch(st, first)
  {
  }

  /** A refetch always asks the server: its result depends on the answer only, not on what was held before. */
  lemma RefetchForgets(a: BrandingState, b: BrandingState, outcome: FetchOutcome)
    ensures Refetch(a, outcome).branding == Refetch(b, outcome).branding
    ensures !a.loaded ==> Refetch(a, outcome) == Fetch(a, outcome)
  {
  }

  /** The fields an update supplies; None leaves the field as it is. */
  datatype Partial = Partial(name: Option<string>, logoUrl: Option<string>, primaryColor: Option<string>)

  /** `{ ...current, ...partial }`. */
  function Merge(current: Branding, p: Partial): (r: Branding)
    ensures r.name == p.name.GetOr(current.name)
    ensures r.logoUrl == p.logoUrl.GetOr(current.logoUrl)
    ensures r.primaryColor == p.primaryColor.GetOr(current.primaryColor)
  {
    Branding(p.name.GetOr(current.name), p.logoUrl.GetOr(current.logoUrl), p.primaryColor.GetOr(current.primaryColor))
  }

  /** The state after a change, the configuration posted, and whether an error was raised. */
  datatype ChangeResult = ChangeResult(state: BrandingState, posted: Branding, raised: bool)

  /**
   `updateBranding`: the merged branding is posted and committed, with the
   title, only on status 200; otherwise the branding is kept and an error is
   raised.  Loading is false at the end either way.
   */
  function Update(st: BrandingState, p: Partial, outcome: PostOutcome): (r: ChangeResult)
    ensures r.posted == Merge(st.branding, p)
    ensures !r.state.loading && r.state.loaded == st.loaded
    ensures r.raised <==> !(outcome.Posted? && outcome.status == 200)
    ensures !r.raised ==> r.state.branding == Merge(st.branding, p) && r.state.title == r.posted.name
    ensures r.raised ==> r.state == st.(loading := false)
  {
    var merged := Merge(st.branding, p);
    if outcome.Posted? && outcome.status == 200 then
      ChangeResult(st.(branding := merged, loading := false, title := merged.name), merged, false)
    else ChangeResult(st.(loading := false), merged, true)
  }

  /** `resetBranding`: the defaults are posted and committed only on status 200. */
  function Reset(st: BrandingState, outcome: PostOutcome): (r: ChangeResult)
    ensures r.posted == DefaultBranding
    ensures !r.state.loading && r.state.loaded == st.loaded
    ensures r.raised <==> !(outcome.Posted? && outcome.status == 200)
    ensures !r.raised ==> r.state.branding == DefaultBranding && r.state.title == DefaultBranding.name
    ensures r.raised ==> r.state == st.(loading := false)
  {
    if outcome.Posted? && outcome.status == 200 then
      ChangeResult(st.(branding := DefaultBranding, loading := false, title := DefaultBranding.name), DefaultBranding, false)
    else ChangeResult(st.(loading := false), DefaultBranding, true)
  }

  /** An update that supplies every field replaces the branding whatever it was. */
  lemma FullUpdateReplaces(st: BrandingState, b: Branding)
    ensures Update(st, Partial(Some(b.name), Some(b.logoUrl), Some(b.primaryColor)), Posted(200)).state.branding == b
  {
  }

  /** An update that supplies nothing posts and keeps the current branding. */
  lemma EmptyUpdateKeeps(st: BrandingState, outcome: PostOutcome)
    ensures Update(st, Partial(None, None, None), outcome).state.branding == st.branding
    ensures Update(st, Partial(None, None, None), outcome).posted == st.branding
  {
  }

  /** A successful reset undoes any earlier update. */
  lemma ResetAfterUpdate(st: BrandingState, p: Partial, outcome: PostOutcome)
    ensures Reset(Update(st, p, outcome).state, Posted(200)).state.branding == DefaultBranding
    ensures Reset(Update(st, p, outcome).state, Posted(200)).state.loaded == st.loaded
  {
  }

  /** A company record with no usable field gives exactly the defaults. */
  lemma EmptyCompanyIsDefault()
    ensures FromCompany(Company(None, Some(""), None)) == DefaultBranding
  {
  }
}

=== FILE: dashboard.dfy ===
/**
 The aggregation rules of the dashboard analytics: which payments count as
 real, how a payment date is reduced to a day key, per-day sums, the day
 timeline, per-status service counts, and the defaults used when a request
 was rejected.  The three API answers and the calendar are inputs.
 */
module Dashboard {
  import opened Prelude
  import opened Text
  import opened ListResponse

  /** The fields of a payment record the aggregation reads; money in whole units. */
  datatype Payment = Payment(paySystemId: Option<string>, date: Option<string>, money: int)

  /** A user service; only its status is read. */
  datatype UserService = UserService(status: string)

  /** Two strings are equal up to the case of ASCII letters, compared character by character. */
  predicate EqualsIgnoringAsciiCase(a: string, b: string) {
    |a| == |b|
    && forall k :: 0 <= k < |a| ==>
         a[k] == b[k]
         || ('A' <= a[k] <= 'Z' && a[k] as int + 32 == b[k] as int)
         || ('A' <= b[k] <= 'Z' && b[k] as int + 32 == a[k] as int)
  }

  /** A real payment went through a payment system: not empty, not `'0'`, not manual in any letter case. */
  predicate IsRealPayment(p: Payment)
    ensures IsRealPayment(p) ==> p.paySystemId.Some? && p.paySystemId.value !in {"", "0", "manual"}
  {
    && p.paySystemId.Some?
    && p.paySystemId.value != []
    && p.paySystemId.value != "0"
    && ToLowerAscii(p.paySystemId.value) != "manual"
  }

  /** The filter rejects exactly the absent, empty, `'0'` and manual payment systems. */
  lemma RealPaymentIff(p: Payment)
    ensures IsRealPayment(p) <==>
      p.paySystemId.Some?
      && p.paySystemId.value !in {"", "0"}
      && !EqualsIgnoringAsciiCase(p.paySystemId.value, "manual")
  {
    if p.paySystemId.Some? {
      var s := p.paySystemId.value;
      var l := ToLowerAscii(s);
      if EqualsIgnoringAsciiCase(s, "manual") {
        assert l == "manual" by {
          forall k | 0 <= k < 6 ensures l[k] == "manual"[k] {
            assert !('A' <= "manual"[k] <= 'Z');
          }
        }
      }
      if l == "manual" {
        forall k | 0 <= k < 6
          ensures s[k] == "manual"[k] || ('A' <= s[k] <= 'Z' && s[k] as int + 32 == "manual"[k] as int)
        {
          assert l[k] == "manual"[k];
        }
      }
    }
  }

  /** Any letter case of "manual" is a manual payment. */
  lemma ManualInAnyCase()
    ensures !IsRealPayment(Payment(Some("MANUAL"), None, 0))
    ensures !IsRealPayment(Payment(Some("Manual"), None, 0))
    ensures !IsRealPayment(Payment(Some("0"), None, 0))
    ensures IsRealPayment(Payment(Some("manual2"), None, 0))
  {
    assert ToLowerAscii("MANUAL") == "manual";
    assert ToLowerAscii("Manual") == "manual";
    assert |ToLowerAscii("manual2")| == 7;
  }

  /** The day a payment is grouped under: the text before the first `T`, else before the first space. */
  function DateKey(date: Option<string>): (r: Option<string>)
    ensures r.Some? ==> date.Some? && r.value != []
    ensures r.Some? ==> StartsWith(date.value, r.value) && 'T' !in r.value
  {
    match date
    case None => None
    case Some(d) =>
      var k := if 'T' in d then BeforeFirst(d, 'T')
               else if ' ' in d then BeforeFirst(d, ' ')
               else d;
      if k == [] then None else Some(k)
  }

  /**
   What the day key is: a non-empty prefix of the date ending at its first
   `T`, or, without a `T`, at its first space or the end; and when there is none.
   */
  lemma DateKeyMeaning(date: Option<string>)
    ensures date.None? ==> DateKey(date).None?
    ensures date.Some? ==>
      var d := date.value;
      DateKey(date).None? <==> (d == [] || d[0] == 'T' || ('T' !in d && d[0] == ' '))
    ensures DateKey(date).Some? ==>
      var d := date.value;
      var r := DateKey(date).value;
      && StartsWith(d, r) && 'T' !in r
      && ('T' in d ==> d[|r|] == 'T')
      && ('T' !in d ==> ' ' !in r && (|r| == |d| || d[|r|] == ' '))
  {
    if date.Some? {
      var d := date.value;
      if 'T' in d {
        var k := BeforeFirst(d, 'T');
        assert |k| == 0 <==> d[0] == 'T';
      } else if ' ' in d {
        var k := BeforeFirst(d, ' ');
        assert |k| == 0 <==> d[0] == ' ';
      }
    }
  }

  lemma DateKeyIsoExample()
    ensures DateKey(Some("2024-05-01T10:00")) == Some("2024-05-01")
  {
    var a := "2024-05-01T10:00";
    assert a[..10] == "2024-05-01";
    assert 'T' !in a[..10];
    IndexOfCharAt(a, 'T', 10);
  }

  lemma DateKeySpaceExample()
    ensures DateKey(Some("2024-05-01 10:00")) == Some("2024-05-01")
  {
    assert "2024-05-01 10:00" == "2024-05-01" + " " + "10:00";
    DateKeyBeforeSpace("2024-05-01", "10:00");
  }

  /** A day and a time separated by a space, with no `T` anywhere, are grouped under the day. */
  lemma DateKeyBeforeSpace(day: string, time: string)
    requires day != [] && 'T' !in day && ' ' !in day && 'T' !in time
    ensures DateKey(Some(day + " " + time)) == Some(day)
  {
    var d := day + " " + time;
    assert d[..|day|] == day;
    assert d[|day|] == ' ';
    assert 'T' !in d by {
      forall k | 0 <= k < |d|
        ensures d[k] != 'T'
      {
        if k < |day| { assert d[k] == day[k]; }
        else if k > |day| { assert d[k] == time[k - |day| - 1]; }
      }
    }
    IndexOfCharAt(d, ' ', |day|);
  }

  lemma DateKeyPlainExample()
    ensures DateKey(Some("2024-05-01")) == Some("2024-05-01")
    ensures DateKey(Some("")) == None
  {
    assert 'T' !in "2024-05-01" && ' ' !in "2024-05-01";
  }

  /** The sum of the amounts of some payments. */
  function TotalMoney(ps: seq<Payment>): int
    decreases |ps|
  {
    if |ps| == 0 then 0 else TotalMoney(ps[..|ps| - 1]) + ps[|ps| - 1].money
  }

  lemma {:induction false} TotalMoneyAppend(a: seq<Payment>, b: seq<Payment>)
    ensures TotalMoney(a + b) == TotalMoney(a) + TotalMoney(b)
    decreases |b|
  {
    if |b| > 0 {
      assert (a + b)[..|a + b| - 1] == a + b[..|b| - 1];
      TotalMoneyAppend(a, b[..|b| - 1]);
    } else {
      assert a + b == a;
    }
  }

  /** `totalRevenue`: the sum over real payments. */
  function TotalRevenue(ps: seq<Payment>): (r: int)
    ensures (forall i :: 0 <= i < |ps| ==> !IsRealPayment(ps[i])) ==> r == 0
  {
    var kept := Filter(ps, IsRealPayment);
    assert kept != [] ==> multiset(kept)[kept[0]] > 0 && IsRealPayment(kept[0]) && kept[0] in ps;
    TotalMoney(kept)
  }

  /** The revenue of two lists of payments is the sum of their revenues. */
  lemma TotalRevenueAppend(a: seq<Payment>, b: seq<Payment>)
    ensures TotalRevenue(a + b) == TotalRevenue(a) + TotalRevenue(b)
  {
    FilterAppend(a, b, IsRealPayment);
    TotalMoneyAppend(Filter(a, IsRealPayment), Filter(b, IsRealPayment));
  }

  /** One more payment adds its amount to the revenue exactly when it is a real payment. */
  lemma TotalRevenueStep(init: seq<Payment>, p: Payment)
    ensures TotalRevenue(init + [p]) == TotalRevenue(init) + (if IsRealPayment(p) then p.money else 0)
  {
    TotalRevenueAppend(init, [p]);
    var f := Filter([p], IsRealPayment);
    assert [p][1..] == [];
    assert Filter([p][1..], IsRealPayment) == [];
    if IsRealPayment(p) {
      assert f == [p];
      assert [p][..0] == [];
      assert TotalMoney([p]) == p.money;
    } else {
      assert f == [];
    }
  }

  /** Whether a payment is a real one grouped under day `day`. */
  function OnDay(day: string): Payment -> bool {
    (p: Payment) => IsRealPayment(p) && DateKey(p.date) == Some(day)
  }

  /** The real payments grouped under day `day`. */
  function PaymentsOn(ps: seq<Payment>, day: string): seq<Payment> {
    Filter(ps, OnDay(day))
  }

  /** `paymentsByDate`: each day key of a real payment mapped to the running sum of that day. */
  function PaymentsByDate(ps: seq<Payment>): map<string, int>
    decreases |ps|
  {
    if |ps| == 0 then map[]
    else
      var m := PaymentsByDate(ps[..|ps| - 1]);
      var p := ps[|ps| - 1];
      var key := DateKey(p.date);
      if IsRealPayment(p) && key.Some? then
        m[key.value := (if key.value in m then m[key.value] else 0) + p.money]
      else m
  }

  /** Adding one payment updates at most the entry of its own day. */
  lemma PaymentsByDateStep(init: seq<Payment>, p: Payment)
    ensures var m := PaymentsByDate(init);
      var key := DateKey(p.date);
      PaymentsByDate(init + [p]) ==
        if IsRealPayment(p) && key.Some? then m[key.value := ValueOn(m, key.value) + p.money] else m
  {
    var ps := init + [p];
    assert ps[..|ps| - 1] == init;
  }

  /** Adding one payment extends the payments of a day by that payment or by nothing. */
  lemma PaymentsOnStep(init: seq<Payment>, p: Payment, day: string)
    ensures PaymentsOn(init + [p], day) == PaymentsOn(init, day) + (if OnDay(day)(p) then [p] else [])
  {
    var keep := OnDay(day);
    FilterAppend(init, [p], keep);
    assert [p][1..] == [];
  }

  /** What a day's entry and its payments are, carried over one more payment. */
  predicate SumsAgree(ps: seq<Payment>, day: string) {
    && (day in PaymentsByDate(ps) <==> |PaymentsOn(ps, day)| > 0)
    && (day in PaymentsByDate(ps) ==> PaymentsByDate(ps)[day] == TotalMoney(PaymentsOn(ps, day)))
  }

  lemma SumsAgreeStep(init: seq<Payment>, p: Payment, day: string)
    requires SumsAgree(init, day)
    ensures SumsAgree(init + [p], day)
  {
    var m := PaymentsByDate(init);
    var before := PaymentsOn(init, day);
    PaymentsByDateStep(init, p);
    PaymentsOnStep(init, p, day);
    if OnDay(day)(p) {
      TotalMoneyAppend(before, [p]);
      assert TotalMoney([p]) == p.money by {
        assert [p][..0] == [];
      }
      if day !in m {
        assert before == [];
      }
    } else {
      assert before + [] == before;
    }
  }

  /** A day appears exactly when it has a real payment, and it holds the sum of those payments. */
  lemma {:induction false} PaymentsByDateSums(ps: seq<Payment>, day: string)
    ensures day in PaymentsByDate(ps) <==> |PaymentsOn(ps, day)| > 0
    ensures day in PaymentsByDate(ps) ==> PaymentsByDate(ps)[day] == TotalMoney(PaymentsOn(ps, day))
    decreases |ps|
  {
    if |ps| > 0 {
      var init := ps[..|ps| - 1];
      PaymentsByDateSums(init, day);
      SumsAgreeStep(init, ps[|ps| - 1], day);
      SplitLast(ps);
    }
  }

  /** One point of the payment chart. */
  datatype DayValue = DayValue(date: string, value: int)

  /** `paymentsByDate[day] || 0`. */
  function ValueOn(byDate: map<string, int>, day: string): int {
    if day in byDate then byDate[day] else 0
  }

  /**
   The chart points for the `period` days ending today, oldest first;
   `dayOf(i)` is the formatted date `i` days before today.
   */
  function Timeline(period: int, dayOf: int -> string, byDate: map<string, int>): (r: seq<DayValue>)
    ensures |r| == if period > 0 then period else 0
    ensures forall j :: 0 <= j < |r| ==>
      r[j].date == dayOf(period - 1 - j) && r[j].value == ValueOn(byDate, r[j].date)
    decreases period
  {
    if period <= 0 then []
    else [DayValue(dayOf(period - 1), ValueOn(byDate, dayOf(period - 1)))] + Timeline(period - 1, dayOf, byDate)
  }

  /** A day without real payments is charted as 0. */
  lemma QuietDayIsZero(ps: seq<Payment>, period: int, dayOf: int -> string, j: int)
    requires 0 <= j < period
    requires |PaymentsOn(ps, dayOf(period - 1 - j))| == 0
    ensures Timeline(period, dayOf, PaymentsByDate(ps))[j].value == 0
  {
    PaymentsByDateSums(ps, dayOf(period - 1 - j));
  }

  /** The number of services in one status. */
  datatype StatusCount = StatusCount(name: string, value: nat)

  function Names(r: seq<StatusCount>): (names: seq<string>)
    ensures |names| == |r|
    ensures forall k :: 0 <= k < |r| ==> names[k] == r[k].name
  {
    seq(|r|, k requires 0 <= k < |r| => r[k].name)
  }

  function SumValues(r: seq<StatusCount>): nat
    decreases |r|
  {
    if |r| == 0 then 0 else SumValues(r[..|r| - 1]) + r[|r| - 1].value
  }

  /** The distinct elements of `xs` in order of first appearance (insertion order of object keys). */
  function FirstOccurrences(xs: seq<string>): seq<string>
    decreases |xs|
  {
    if |xs| == 0 then []
    else
      var init := xs[..|xs| - 1];
      FirstOccurrences(init) + (if xs[|xs| - 1] in init then [] else [xs[|xs| - 1]])
  }

  lemma {:induction false} FirstOccurrencesProps(xs: seq<string>)
    ensures forall x :: x in FirstOccurrences(xs) <==> x in xs
    ensures forall i, j :: 0 <= i < j < |FirstOccurrences(xs)| ==> FirstOccurrences(xs)[i] != FirstOccurrences(xs)[j]
    decreases |xs|
  {
    if |xs| > 0 {
      var init := xs[..|xs| - 1];
      assert xs == init + [xs[|xs| - 1]];
      FirstOccurrencesProps(init);
    }
  }

  lemma {:induction false} SumValuesUpdate(r: seq<StatusCount>, j: int, v: nat)
    requires 0 <= j < |r|
    ensures SumValues(r[j := StatusCount(r[j].name, v)]) == SumValues(r) - r[j].value + v
    decreases |r|
  {
    var r' := r[j := StatusCount(r[j].name, v)];
    if j < |r| - 1 {
      assert r'[..|r'| - 1] == r[..|r| - 1][j := StatusCount(r[j].name, v)];
      SumValuesUpdate(r[..|r| - 1], j, v);
    } else {
      assert r'[..|r'| - 1] == r[..|r| - 1];
    }
  }

  function IndexOfName(r: seq<StatusCount>, name: string): (j: int)
    ensures -1 <= j < |r|
    ensures j == -1 <==> name !in Names(r)
    ensures j >= 0 ==> r[j].name == name
    decreases |r|
  {
    if |r| == 0 then -1
    else if r[|r| - 1].name == name then |r| - 1
    else
      var j := IndexOfName(r[..|r| - 1], name);
      assert Names(r) == Names(r[..|r| - 1]) + [r[|r| - 1].name];
      j
  }

  /** `r` tallies `xs`: first-appearance order, one count per status, counts adding up to `|xs|`. */
  predicate Tallies(r: seq<StatusCount>, xs: seq<string>) {
    && Names(r) == FirstOccurrences(xs)
    && (forall k :: 0 <= k < |r| ==> r[k].value == multiset(xs)[r[k].name])
    && SumValues(r) == |xs|
  }

  /** One loop step of the counting: bump the status's count, or append it with count 1. */
  function Tally(r: seq<StatusCount>, s: string): seq<StatusCount> {
    var j := IndexOfName(r, s);
    if j < 0 then r + [StatusCount(s, 1)] else r[j := StatusCount(s, r[j].value + 1)]
  }

  lemma TallyStep(r: seq<StatusCount>, xs: seq<string>, s: string)
    requires Tallies(r, xs)
    ensures Tallies(Tally(r, s), xs + [s])
  {
    var xs' := xs + [s];
    assert xs'[..|xs|] == xs;
    assert multiset(xs') == multiset(xs) + multiset{s};
    FirstOccurrencesProps(xs);
    var j := IndexOfName(r, s);
    var r' := Tally(r, s);
    if j < 0 {
      assert s !in xs;
      assert r'[..|r|] == r;
      assert Names(r') == Names(r) + [s];
      forall k | 0 <= k < |r'|
        ensures r'[k].value == multiset(xs')[r'[k].name]
      {
        if k < |r| {
          assert r'[k].name == Names(r)[k] != s;
        }
      }
    } else {
      assert s in xs;
      SumValuesUpdate(r, j, r[j].value + 1);
      assert Names(r') == Names(r);
      forall k | 0 <= k < |r'|
        ensures r'[k].value == multiset(xs')[r'[k].name]
      {
        if k != j {
          assert Names(r)[k] != Names(r)[j];
        }
      }
    }
  }

  /** The tally of a whole list, one step per element. */
  function TallyAll(xs: seq<string>): seq<StatusCount>
    decreases |xs|
  {
    if |xs| == 0 then [] else Tally(TallyAll(xs[..|xs| - 1]), xs[|xs| - 1])
  }

  lemma {:induction false} TallyAllTallies(xs: seq<string>)
    ensures Tallies(TallyAll(xs), xs)
    decreases |xs|
  {
    if |xs| > 0 {
      var init := xs[..|xs| - 1];
      var last := xs[|xs| - 1];
      assert xs == init + [last];
      assert TallyAll(xs) == Tally(TallyAll(init), last);
      TallyAllTallies(init);
      TallyStep(TallyAll(init), init, last);
    }
  }

  /**
   `servicesByStatus` as a list of (status, count) in order of first
   appearance: every status once, with the number of services in it.
   */
  method CountByStatus(statuses: seq<string>) returns (r: seq<StatusCount>)
    ensures Names(r) == FirstOccurrences(statuses)
    ensures forall k :: 0 <= k < |r| ==> r[k].value == multiset(statuses)[r[k].name]
    ensures SumValues(r) == |statuses|
  {
    r := [];
    var i := 0;
    while i < |statuses|
      invariant 0 <= i <= |statuses|
      invariant r == TallyAll(statuses[..i])
    {
      assert statuses[..i + 1][..i] == statuses[..i];
      r := Tally(r, statuses[i]);
      i := i + 1;
    }
    assert statuses[..i] == statuses;
    TallyAllTallies(statuses);
  }

  /** Every status appears exactly once in the tally. */
  lemma StatusNamesDistinct(statuses: seq<string>, r: seq<StatusCount>)
    requires Names(r) == FirstOccurrences(statuses)
    ensures forall x :: x in statuses <==> x in Names(r)
    ensures forall i, j :: 0 <= i < j < |r| ==> r[i].name != r[j].name
  {
    FirstOccurrencesProps(statuses);
    forall i, j | 0 <= i < j < |r|
      ensures r[i].name != r[j].name
    {
      assert Names(r)[i] != Names(r)[j];
    }
  }

  /** The rejected or missing-count defaulting: `res?.items || 0`. */
  function ItemsOrZero<T>(res: Option<Response<T>>): (n: int)
    ensures res.None? || res.value.ArrayBody? ==> n == 0
    ensures res.Some? && res.value.ObjectBody? && res.value.items.Some? ==> n == res.value.items.value
    ensures res.Some? && res.value.ObjectBody? && res.value.items.None? ==> n == 0
  {
    match res
    case Some(ObjectBody(_, Some(items), _)) => items
    case _ => 0
  }

  /** A rejected request (None) yields no records. */
  function RecordsOf<T>(res: Option<Response<T>>): (xs: seq<T>)
    ensures res.None? ==> xs == []
    ensures res.Some? ==> xs == NormalizeListResponse(res.value).data
  {
    match res
    case None => []
    case Some(r) => NormalizeListResponse(r).data
  }

  datatype Counts = Counts(totalUsers: int, userServicesCount: int, totalRevenue: int)

  datatype Analytics = Analytics(counts: Counts, timeline: seq<DayValue>, byStatus: seq<StatusCount>)

  function StatusesOf(services: seq<UserService>): (ss: seq<string>)
    ensures |ss| == |services|
    ensures forall k :: 0 <= k < |ss| ==> ss[k] == services[k].status
  {
    seq(|services|, k requires 0 <= k < |services| => services[k].status)
  }

  /**
   `fetchDashboardAnalytics` after its three requests settled: each
   argument is the fulfilled value, or None for a rejected request.
   */
  method FetchDashboardAnalytics<U>(period: int, dayOf: int -> string,
                                    usersCount: Option<Response<U>>,
                                    userServices: Option<Response<UserService>>,
                                    payments: Option<Response<Payment>>)
    returns (a: Analytics)
    ensures a.counts.totalUsers == ItemsOrZero(usersCount)
    ensures a.counts.userServicesCount == ItemsOrZero(userServices)
    ensures a.counts.totalRevenue == TotalMoney(Filter(RecordsOf(payments), IsRealPayment))
    ensures a.timeline == Timeline(period, dayOf, PaymentsByDate(RecordsOf(payments)))
    ensures Names(a.byStatus) == FirstOccurrences(StatusesOf(RecordsOf(userServices)))
    ensures forall k :: 0 <= k < |a.byStatus| ==>
      a.byStatus[k].value == multiset(StatusesOf(RecordsOf(userServices)))[a.byStatus[k].name]
    ensures SumValues(a.byStatus) == |RecordsOf(userServices)|
  {
    var services := RecordsOf(userServices);
    var pays := RecordsOf(payments);
    var byStatus := CountByStatus(StatusesOf(services));
    var counts := Counts(ItemsOrZero(usersCount), ItemsOrZero(userServices), TotalRevenue(pays));
    a := Analytics(counts, Timeline(period, dayOf, PaymentsByDate(pays)), byStatus);
  }

  /** With every request rejected the dashboard shows zeros and empty lists. */
  method AllRejected<U>(period: int, dayOf: int -> string) returns (a: Analytics)
    ensures a.counts == Counts(0, 0, 0)
    ensures a.byStatus == []
    ensures |a.timeline| == (if period > 0 then period else 0)
    ensures forall j :: 0 <= j < |a.timeline| ==> a.timeline[j].value == 0
  {
    a := FetchDashboardAnalytics<U>(period, dayOf, None, None, None);
    assert Filter([], IsRealPayment) == [];
    assert |Names(a.byStatus)| == 0;
  }
}

=== FILE: filter_utils.dfy ===
/**
 Building the `filter` query parameter of the admin API from the values typed
 into a table's filter row.

 Each non-empty (key, value) pair becomes either the exact value or a
 `{"-like": "%value%"}` pattern, depending on the key and the filter mode; a
 dotted key `a.b.c` is placed at the nested path a -> b -> c.  The result is
 appended to a URL through a serializer the model treats as opaque.
 */
module FilterUtils {
  import opened Prelude
  import opened Text

  /** The values a filter tree holds: a string, or an object of named values. */
  datatype Json = JStr(s: string) | JObj(fields: map<string, Json>)

  type Filters = map<string, Json>

  datatype FilterMode = Like | Exact

  /** Keys that are always matched with LIKE, whatever the mode. */
  const AlwaysLikeFields: seq<string> := ["settings"]

  /** Keys matched exactly once a user has been selected. */
  const ExactWhenUserSelected: seq<string> := ["user_id"]

  /** The `{"-like": "%value%"}` pattern. */
  function LikeWrap(value: string): Json {
    JObj(map["-like" := JStr("%" + value + "%")])
  }

  /** JavaScript truthiness inside a filter tree: only the empty string is falsy. */
  predicate Truthy(j: Json) {
    !(j.JStr? && j.s == [])
  }

  /** Truthiness of the optional `selectedUserId`: present and not 0. */
  predicate UserSelected(selectedUserId: Option<int>) {
    selectedUserId.Some? && selectedUserId.value != 0
  }

  /** The value stored for `key`: the exact text, or a LIKE pattern around it. */
  function FilterValue(key: string, value: string, mode: FilterMode, selectedUserId: Option<int>): (r: Json)
    ensures r.JStr? <==>
      key !in AlwaysLikeFields
      && ((key in ExactWhenUserSelected && UserSelected(selectedUserId)) || mode == Exact)
    ensures r.JStr? ==> r.s == value
    ensures r.JObj? ==> r == LikeWrap(value)
  {
    if key in AlwaysLikeFields then LikeWrap(value)
    else if key in ExactWhenUserSelected && UserSelected(selectedUserId) then JStr(value)
    else if mode == Exact then JStr(value)
    else LikeWrap(value)
  }

  /** The value found by following `path` from `obj`, if every step lands on an object. */
  function Lookup(obj: Filters, path: seq<string>): Option<Json>
    requires |path| >= 1
    decreases |path|
  {
    if path[0] !in obj then None
    else if |path| == 1 then Some(obj[path[0]])
    else match obj[path[0]]
      case JStr(_) => None
      case JObj(m) => Lookup(m, path[1..])
  }

  /**
   The nested assignment loop: every missing or falsy step becomes `{}`; a
   truthy string on the way cannot take a property, which in a strict-mode
   module is a TypeError (here: None).
   */
  function SetPath(obj: Filters, path: seq<string>, v: Json): (r: Option<Filters>)
    requires |path| >= 1
    ensures r.Some? ==> path[0] in r.value && r.value.Keys == obj.Keys + {path[0]}
    decreases |path|
  {
    var k := path[0];
    if |path| == 1 then Some(obj[k := v])
    else
      var child := if k in obj && Truthy(obj[k]) then obj[k] else JObj(map[]);
      match child
      case JStr(_) => None
      case JObj(m) =>
        match SetPath(m, path[1..], v)
        case None => None
        case Some(m') => Some(obj[k := JObj(m')])
  }

  /** After a successful placement the value sits at the path. */
  lemma {:induction false} SetPathStores(obj: Filters, path: seq<string>, v: Json)
    requires |path| >= 1 && SetPath(obj, path, v).Some?
    ensures Lookup(SetPath(obj, path, v).value, path) == Some(v)
    decreases |path|
  {
    if |path| > 1 {
      var k := path[0];
      var child := if k in obj && Truthy(obj[k]) then obj[k] else JObj(map[]);
      SetPathStores(child.fields, path[1..], v);
    }
  }

  /** The two paths part ways at some step. */
  predicate Diverge(p: seq<string>, q: seq<string>) {
    exists i :: 0 <= i < |p| && i < |q| && p[i] != q[i]
  }

  /** Placing a value leaves every entry on a diverging path as it was. */
  lemma {:induction false} SetPathKeepsSiblings(obj: Filters, path: seq<string>, v: Json, q: seq<string>)
    requires |path| >= 1 && |q| >= 1 && SetPath(obj, path, v).Some?
    requires Diverge(path, q)
    ensures Lookup(SetPath(obj, path, v).value, q) == Lookup(obj, q)
    decreases |path|
  {
    var r := SetPath(obj, path, v).value;
    var k := path[0];
    if q[0] != k {
      if q[0] in obj {
        assert r[q[0]] == obj[q[0]];
      }
    } else {
      var i :| 0 <= i < |path| && i < |q| && path[i] != q[i];
      assert i >= 1;
      var child := if k in obj && Truthy(obj[k]) then obj[k] else JObj(map[]);
      assert Diverge(path[1..], q[1..]) by {
        assert path[1..][i - 1] != q[1..][i - 1];
      }
      SetPathKeepsSiblings(child.fields, path[1..], v, q[1..]);
      if !(k in obj && Truthy(obj[k])) {
        EmptyLookup(q[1..]);
      }
    }
  }

  lemma EmptyLookup(q: seq<string>)
    requires |q| >= 1
    ensures Lookup(map[], q) == None
  {
  }

  /** Placement fails exactly when a non-empty string sits on a proper prefix of the path. */
  lemma {:induction false} SetPathFailsOnString(obj: Filters, path: seq<string>, v: Json)
    requires |path| >= 1
    ensures SetPath(obj, path, v).None? <==>
      exists k :: 1 <= k < |path| && Lookup(obj, path[..k]).Some?
                  && Lookup(obj, path[..k]).value.JStr? && Lookup(obj, path[..k]).value.s != []
    decreases |path|
  {
    var k0 := path[0];
    if |path| > 1 {
      assert Lookup(obj, path[..1]) == if k0 in obj then Some(obj[k0]) else None;
      var child := if k0 in obj && Truthy(obj[k0]) then obj[k0] else JObj(map[]);
      if child.JObj? {
        var m := child.fields;
        var truthy := k0 in obj && Truthy(obj[k0]);
        SetPathFailsOnString(m, path[1..], v);
        forall k | 2 <= k < |path|
          ensures Lookup(obj, path[..k]) == if truthy then Lookup(m, path[1..][..k - 1]) else None
        {
          assert path[..k][1..] == path[1..][..k - 1];
          if !truthy && k0 in obj {
            assert obj[k0] == JStr([]);
          }
        }
        if !truthy {
          forall k | 1 <= k < |path| - 1
            ensures Lookup(m, path[1..][..k]) == None
          {
            EmptyLookup(path[1..][..k]);
          }
        } else if SetPath(obj, path, v).None? {
          var k :| 1 <= k < |path| - 1 && Lookup(m, path[1..][..k]).Some?
                   && Lookup(m, path[1..][..k]).value.JStr? && Lookup(m, path[1..][..k]).value.s != [];
          assert Lookup(obj, path[..k + 1]) == Lookup(m, path[1..][..k]);
        }
      }
    }
  }

  /** One filter-row entry folded into the filters built so far. */
  function AddEntry(acc: Filters, entry: (string, string), mode: FilterMode, selectedUserId: Option<int>): Option<Filters> {
    var (key, value) := entry;
    if value == [] then Some(acc)
    else
      var fv := FilterValue(key, value, mode, selectedUserId);
      if '.' in key then SetPath(acc, Split(key, '.'), fv) else Some(acc[key := fv])
  }

  /** `buildApiFilters` over the entries of the filter row, in entry order; None is a TypeError. */
  function BuildApiFilters(entries: seq<(string, string)>, mode: FilterMode, selectedUserId: Option<int>): (r: Option<Filters>)
    ensures |entries| == 0 ==> r == Some(map[])
    decreases |entries|
  {
    if |entries| == 0 then Some(map[])
    else
      match BuildApiFilters(entries[..|entries| - 1], mode, selectedUserId)
      case None => None
      case Some(acc) => AddEntry(acc, entries[|entries| - 1], mode, selectedUserId)
  }

  predicate NonEmptyValue(e: (string, string)) {
    e.1 != []
  }

  /** Building with one more entry folds that entry into what the others built. */
  lemma BuildSnoc(entries: seq<(string, string)>, e: (string, string), mode: FilterMode, selectedUserId: Option<int>)
    ensures BuildApiFilters(entries + [e], mode, selectedUserId)
         == if BuildApiFilters(entries, mode, selectedUserId).None? then None
            else AddEntry(BuildApiFilters(entries, mode, selectedUserId).value, e, mode, selectedUserId)
  {
    assert (entries + [e])[..|entries|] == entries;
  }

  /** Entries with an empty value contribute nothing. */
  lemma {:induction false} EmptyValuesIgnored(entries: seq<(string, string)>, mode: FilterMode, selectedUserId: Option<int>)
    ensures BuildApiFilters(entries, mode, selectedUserId)
         == BuildApiFilters(Filter(entries, NonEmptyValue), mode, selectedUserId)
    decreases |entries|
  {
    if |entries| > 0 {
      var init := entries[..|entries| - 1];
      var last := entries[|entries| - 1];
      SplitLast(entries);
      EmptyValuesIgnored(init, mode, selectedUserId);
      FilterSnoc(init, last, NonEmptyValue);
      var f := Filter(init, NonEmptyValue);
      BuildSnoc(init, last, mode, selectedUserId);
      if NonEmptyValue(last) {
        BuildSnoc(f, last, mode, selectedUserId);
      } else {
        assert f + [] == f;
      }
    }
  }

  /** An undotted key sets exactly that top-level entry. */
  lemma UndottedKeySetsEntry(entries: seq<(string, string)>, key: string, value: string, mode: FilterMode, selectedUserId: Option<int>)
    requires '.' !in key && value != []
    requires BuildApiFilters(entries, mode, selectedUserId).Some?
    ensures BuildApiFilters(entries + [(key, value)], mode, selectedUserId)
         == Some(BuildApiFilters(entries, mode, selectedUserId).value[key := FilterValue(key, value, mode, selectedUserId)])
  {
    assert (entries + [(key, value)])[..|entries|] == entries;
  }

  /** A dotted key stores its value at the nested path and leaves diverging entries intact. */
  lemma DottedKeyPlacesNested(entries: seq<(string, string)>, key: string, value: string, mode: FilterMode,
                              selectedUserId: Option<int>, q: seq<string>)
    requires '.' in key && value != [] && |q| >= 1
    requires BuildApiFilters(entries + [(key, value)], mode, selectedUserId).Some?
    requires Diverge(Split(key, '.'), q)
    ensures var before := BuildApiFilters(entries, mode, selectedUserId);
            var after := BuildApiFilters(entries + [(key, value)], mode, selectedUserId).value;
            && before.Some?
            && Lookup(after, Split(key, '.')) == Some(FilterValue(key, value, mode, selectedUserId))
            && Lookup(after, q) == Lookup(before.value, q)
  {
    assert (entries + [(key, value)])[..|entries|] == entries;
    var before := BuildApiFilters(entries, mode, selectedUserId).value;
    var fv := FilterValue(key, value, mode, selectedUserId);
    SetPathStores(before, Split(key, '.'), fv);
    SetPathKeepsSiblings(before, Split(key, '.'), fv, q);
  }

  /** Without dotted keys nothing fails, and the keys are exactly those with a non-empty value. */
  lemma {:induction false} UndottedKeysBuildFlatMap(entries: seq<(string, string)>, mode: FilterMode, selectedUserId: Option<int>)
    requires forall i :: 0 <= i < |entries| ==> '.' !in entries[i].0
    ensures BuildApiFilters(entries, mode, selectedUserId).Some?
    ensures BuildApiFilters(entries, mode, selectedUserId).value.Keys
         == set i | 0 <= i < |entries| && entries[i].1 != [] :: entries[i].0
    decreases |entries|
  {
    if |entries| > 0 {
      var init := entries[..|entries| - 1];
      var last := entries[|entries| - 1];
      UndottedKeysBuildFlatMap(init, mode, selectedUserId);
      var keys := set i | 0 <= i < |entries| && entries[i].1 != [] :: entries[i].0;
      var keys0 := set i | 0 <= i < |init| && init[i].1 != [] :: init[i].0;
      if last.1 != [] {
        assert keys == keys0 + {last.0} by {
          forall x | x in keys ensures x in keys0 + {last.0} {
            var i :| 0 <= i < |entries| && entries[i].1 != [] && entries[i].0 == x;
            if i < |init| { assert init[i] == entries[i]; }
          }
          forall x | x in keys0 ensures x in keys {
            var i :| 0 <= i < |init| && init[i].1 != [] && init[i].0 == x;
            assert entries[i] == init[i];
          }
          assert entries[|entries| - 1] == last;
        }
      } else {
        assert keys == keys0 by {
          forall x | x in keys ensures x in keys0 {
            var i :| 0 <= i < |entries| && entries[i].1 != [] && entries[i].0 == x;
            assert i < |init|;
            assert init[i] == entries[i];
          }
          forall x | x in keys0 ensures x in keys {
            var i :| 0 <= i < |init| && init[i].1 != [] && init[i].0 == x;
            assert entries[i] == init[i];
          }
        }
      }
    }
  }

  /** `appendFilterToUrl`: nothing is appended for an empty filter object. */
  function AppendFilterToUrl(url: string, filters: Filters, encode: Filters -> string): (r: string)
    ensures StartsWith(r, url)
    ensures |filters| == 0 <==> r == url
    ensures |filters| > 0 ==> r[|url|..] == "&filter=" + encode(filters)
  {
    if |filters| > 0 then url + "&filter=" + encode(filters) else url
  }

  /** A filter row with only empty values leaves the URL as it is. */
  lemma EmptyRowKeepsUrl(url: string, entries: seq<(string, string)>, mode: FilterMode,
                         selectedUserId: Option<int>, encode: Filters -> string)
    requires forall i :: 0 <= i < |entries| ==> entries[i].1 == []
    ensures BuildApiFilters(entries, mode, selectedUserId) == Some(map[])
    ensures AppendFilterToUrl(url, map[], encode) == url
  {
    EmptyValuesIgnored(entries, mode, selectedUserId);
    var f := Filter(entries, NonEmptyValue);
    if |f| > 0 {
      assert multiset(f)[f[0]] > 0;
      FilterMembership(entries, NonEmptyValue, f[0]);
    }
  }
}

=== FILE: list_response.dfy ===
/**
 `normalizeListResponse`: list endpoints answer either with a bare array or
 with an object `{ data, items?, total? }`; both are brought to
 `{ data, total }`.
 */
module ListResponse {
  import opened Prelude

  /**
   A decoded list response.  `data` is None when the field is absent or
   falsy; `items` and `total` are None when they are `null` or `undefined`.
   */
  datatype Response<T> =
    | ArrayBody(elements: seq<T>)
    | ObjectBody(data: Option<seq<T>>, items: Option<int>, total: Option<int>)

  datatype ListResult<T> = ListResult(data: seq<T>, total: int)

  /** The `data` of a response: the array itself, or the `data` field (`[]` when missing). */
  function DataOf<T>(res: Response<T>): seq<T> {
    match res
    case ArrayBody(xs) => xs
    case ObjectBody(d, _, _) => d.GetOr([])
  }

  function NormalizeListResponse<T>(res: Response<T>): (r: ListResult<T>)
    ensures r.data == DataOf(res)
    ensures res.ArrayBody? ==> r.total == |res.elements|
    ensures res.ObjectBody? && res.items.Some? ==> r.total == res.items.value
    ensures res.ObjectBody? && res.items.None? && res.total.Some? ==> r.total == res.total.value
    ensures res.ObjectBody? && res.items.None? && res.total.None? ==> r.total == |r.data|
  {
    match res
    case ArrayBody(xs) => ListResult(xs, |xs|)
    case ObjectBody(d, items, total) =>
      var data := d.GetOr([]);
      ListResult(data, items.GetOr(total.GetOr(|data|)))
  }

  /** A normalised result, sent back as an object, normalises to itself. */
  lemma ObjectRoundTrip<T>(r: ListResult<T>, total: Option<int>)
    ensures NormalizeListResponse(ObjectBody(Some(r.data), Some(r.total), total)) == r
  {
  }

  /** The total is the number of elements exactly when the response carries no count of its own. */
  lemma TotalFallsBackToLength<T>(res: Response<T>)
    requires res.ArrayBody? || (res.items.None? && res.total.None?)
    ensures NormalizeListResponse(res).total == |NormalizeListResponse(res).data|
  {
  }

  /** A count of 0 is kept: `??` only skips null and undefined. */
  lemma ZeroCountKept<T>(d: Option<seq<T>>, total: Option<int>)
    ensures NormalizeListResponse(ObjectBody(d, Some(0), total)).total == 0
  {
  }
}

=== FILE: login_flow.dfy ===
/**
 The sign-in page as a state machine: the login is asked first, then the
 password, then (when the server asks for it) a one-time code.  Each answer
 of the server or the passkey service is an input of the transition, and
 what the page shows or sends is part of its result.
 */
module LoginFlow {
  import opened Prelude
  import opened Text
  import AuthStore

  datatype Step = LoginStep | PasswordStep | OtpStep

  /** The page's state; `passkeyOptions` is the opaque option blob, None when absent or falsy. */
  datatype LoginState = LoginState(
    step: Step,
    login: string,
    password: string,
    otp: string,
    passkeyAvailable: bool,
    passkeyOptions: Option<string>)

  const Start := LoginState(LoginStep, "", "", "", false, None)

  /** The answer of `checkPasskeyAvailable`: its fields, or an exception. */
  datatype PasskeyCheck = Checked(available: bool, options: Option<string>) | CheckThrew

  /** The answer of `shm_login`: a request for the code, a signed-in user, or an exception and its message. */
  datatype LoginReply = NeedsOtp | LoggedIn(user: AuthStore.User, sessionId: string) | LoginThrew(message: string)

  /** The answer of `authenticateWithPasskey`. */
  datatype PasskeyReply = PasskeyOk(user: AuthStore.User, sessionId: string) | PasskeyThrew(name: string, message: string)

  /** The request `shm_login(login, password, otp)` sends. */
  datatype Request = Request(login: string, password: string, otp: Option<string>)

  /**
   What the page reports.  `Failed(None)` is the default failure text shown
   when the error has no message; `SignedIn` stands for `setAuth`, the
   branding refetch and the move to the start page.
   */
  datatype Notice =
    | Quiet
    | LoginMissing
    | PasswordMissing
    | OtpMissing
    | OtpPrompt
    | Failed(message: Option<string>)
    | SignedIn(user: AuthStore.User, sessionId: string)
    | PasskeyUnavailable
    | PasskeyCancelled

  datatype SubmitResult = SubmitResult(state: LoginState, passkeyQuery: Option<string>, request: Option<Request>, notice: Notice)

  /** `error.message || <default>`. */
  function FailureText(message: string): Option<string> {
    if message != [] then Some(message) else None
  }

  /** `handleLoginStep`: a non-blank login moves to the password step, whatever the passkey check answers. */
  function HandleLoginStep(st: LoginState, check: PasskeyCheck): (r: SubmitResult)
    ensures Trim(st.login) == [] ==> r == SubmitResult(st, None, None, LoginMissing)
    ensures Trim(st.login) != [] ==>
      && r.state.step == PasswordStep
      && r.passkeyQuery == Some(st.login) && r.request.None? && r.notice == Quiet
      && r.state.(step := st.step, passkeyAvailable := st.passkeyAvailable, passkeyOptions := st.passkeyOptions) == st
      && (check.CheckThrew? ==> !r.state.passkeyAvailable && r.state.passkeyOptions.None?)
      && (check.Checked? ==> r.state.passkeyAvailable == check.available && r.state.passkeyOptions == check.options)
  {
    if Trim(st.login) == [] then SubmitResult(st, None, None, LoginMissing)
    else
      var st' := match check
        case Checked(available, options) => st.(passkeyAvailable := available, passkeyOptions := options)
        case CheckThrew => st.(passkeyAvailable := false, passkeyOptions := None);
      SubmitResult(st'.(step := PasswordStep), Some(st.login), None, Quiet)
  }

  /** `handleSubmit`: the login step, or the checks and the sign-in request of the later steps. */
  function Submit(st: LoginState, check: PasskeyCheck, reply: LoginReply): (r: SubmitResult)
    ensures st.step == LoginStep ==> r == HandleLoginStep(st, check)
    ensures st.step != LoginStep && st.password == [] ==> r == SubmitResult(st, None, None, PasswordMissing)
    ensures st.step == OtpStep && st.password != [] && st.otp == [] ==> r == SubmitResult(st, None, None, OtpMissing)
    ensures st.step != LoginStep && st.password != [] && !(st.step == OtpStep && st.otp == []) ==> r.request.Some?
    ensures st.step != LoginStep ==> r.passkeyQuery.None?
    ensures r.request.Some? ==>
      && st.step != LoginStep && st.password != []
      && r.request.value == Request(st.login, st.password, if st.step == OtpStep then Some(st.otp) else None)
    ensures r.request.Some? && reply.NeedsOtp? ==> r.state == st.(step := OtpStep) && r.notice == OtpPrompt
    ensures r.request.Some? && reply.LoggedIn? ==> r.state == st && r.notice == SignedIn(reply.user, reply.sessionId)
    ensures r.request.Some? && reply.LoginThrew? ==>
      && r.state == (if st.step == OtpStep then st.(otp := "") else st)
      && r.notice == Failed(FailureText(reply.message))
  {
    if st.step == LoginStep then HandleLoginStep(st, check)
    else if st.password == [] then SubmitResult(st, None, None, PasswordMissing)
    else if st.step == OtpStep && st.otp == [] then SubmitResult(st, None, None, OtpMissing)
    else
      var req := Request(st.login, st.password, if st.step == OtpStep then Some(st.otp) else None);
      match reply
      case NeedsOtp => SubmitResult(st.(step := OtpStep), None, Some(req), OtpPrompt)
      case LoggedIn(user, sessionId) => SubmitResult(st, None, Some(req), SignedIn(user, sessionId))
      case LoginThrew(message) =>
        SubmitResult(if st.step == OtpStep then st.(otp := "") else st, None, Some(req), Failed(FailureText(message)))
  }

  /** `handleBack`: otp -> password clearing the code, password -> login clearing the password and passkey state. */
  function HandleBack(st: LoginState): (r: LoginState)
    ensures st.step == OtpStep ==> r == st.(step := PasswordStep, otp := "")
    ensures st.step == PasswordStep ==>
      r == st.(step := LoginStep, password := "", passkeyAvailable := false, passkeyOptions := None)
    ensures st.step == LoginStep ==> r == st
  {
    match st.step
    case OtpStep => st.(step := PasswordStep, otp := "")
    case PasswordStep => st.(step := LoginStep, password := "", passkeyAvailable := false, passkeyOptions := None)
    case LoginStep => st
  }

  /** `handlePasskeyLogin`: refused without passkey options; otherwise the service's answer is reported. */
  function HandlePasskeyLogin(st: LoginState, reply: PasskeyReply): (r: (bool, Notice))
    ensures st.passkeyOptions.None? ==> r == (false, PasskeyUnavailable)
    ensures st.passkeyOptions.Some? ==> r.0
    ensures st.passkeyOptions.Some? && reply.PasskeyOk? ==> r.1 == SignedIn(reply.user, reply.sessionId)
    ensures st.passkeyOptions.Some? && reply.PasskeyThrew? ==>
      r.1 == if reply.name == "NotAllowedError" then PasskeyCancelled else Failed(FailureText(reply.message))
  {
    if st.passkeyOptions.None? then (false, PasskeyUnavailable)
    else
      match reply
      case PasskeyOk(user, sessionId) => (true, SignedIn(user, sessionId))
      case PasskeyThrew(name, message) =>
        (true, if name == "NotAllowedError" then PasskeyCancelled else Failed(FailureText(message)))
  }

  /** The longest code the input accepts. */
  const OtpLength := 8

  /** `value.replace(/\D/g, '').slice(0, 8)`: the first eight digits typed. */
  function SanitizeOtp(s: string): (r: string)
    ensures |r| <= OtpLength
    ensures forall k :: 0 <= k < |r| ==> IsDigit(r[k])
    ensures StartsWith(Digits(s), r)
    ensures |r| == if |Digits(s)| < OtpLength then |Digits(s)| else OtpLength
  {
    var d := Digits(s);
    if |d| <= OtpLength then d else d[..OtpLength]
  }

  /** Sanitising a sanitised code changes nothing. */
  lemma SanitizeIdempotent(s: string)
    ensures SanitizeOtp(SanitizeOtp(s)) == SanitizeOtp(s)
  {
    var r := SanitizeOtp(s);
    FilterAll(r, IsDigit);
  }

  /** A code of at most eight digits is kept as typed. */
  lemma DigitsKept(s: string)
    requires |s| <= OtpLength && forall k :: 0 <= k < |s| ==> IsDigit(s[k])
    ensures SanitizeOtp(s) == s
  {
    FilterAll(s, IsDigit);
  }

  /** The user's actions on the page. */
  datatype Event =
    | TypeLogin(text: string)
    | TypePassword(text: string)
    | TypeOtp(text: string)
    | SubmitForm(check: PasskeyCheck, reply: LoginReply)
    | Back
    | UsePasskey(passkey: PasskeyReply)

  /**
   The state after an action.  The login field is disabled after the first
   step, the password field at the code step, and the code field exists only
   at the code step.
   */
  function Apply(st: LoginState, e: Event): (r: LoginState)
    ensures e.TypeLogin? ==> r.(login := st.login) == st && (r.login != st.login ==> st.step == LoginStep)
    ensures e.TypePassword? ==> r.(password := st.password) == st && (r.password != st.password ==> st.step != OtpStep)
    ensures e.TypeOtp? ==> r.(otp := st.otp) == st && (st.step == OtpStep ==> r.otp == SanitizeOtp(e.text))
    ensures e.TypeOtp? && st.step != OtpStep ==> r == st
    ensures e.UsePasskey? ==> r == st
  {
    match e
    case TypeLogin(text) => if st.step == LoginStep then st.(login := text) else st
    case TypePassword(text) => if st.step != OtpStep then st.(password := text) else st
    case TypeOtp(text) => if st.step == OtpStep then st.(otp := SanitizeOtp(text)) else st
    case SubmitForm(check, reply) => Submit(st, check, reply).state
    case Back => HandleBack(st)
    case UsePasskey(_) => st
  }

  /**
   What holds on every reachable page: a code exists only at the code step
   and is at most eight digits, and no passkey state is held at the first step.
   */
  predicate Inv(st: LoginState) {
    && (st.step != OtpStep ==> st.otp == [])
    && |st.otp| <= OtpLength
    && (forall k :: 0 <= k < |st.otp| ==> IsDigit(st.otp[k]))
    && (st.step == LoginStep ==> !st.passkeyAvailable && st.passkeyOptions.None?)
  }

  lemma StartInv()
    ensures Inv(Start)
  {
  }

  /** Every action keeps the invariant. */
  lemma ApplyKeepsInv(st: LoginState, e: Event)
    requires Inv(st)
    ensures Inv(Apply(st, e))
  {
  }

  /** Every sequence of actions from the start keeps the invariant. */
  lemma {:induction false} RunKeepsInv(st: LoginState, es: seq<Event>)
    requires Inv(st)
    ensures Inv(Run(st, es))
    decreases |es|
  {
    if |es| > 0 {
      ApplyKeepsInv(st, es[0]);
      RunKeepsInv(Apply(st, es[0]), es[1..]);
    }
  }

  function Run(st: LoginState, es: seq<Event>): LoginState
    decreases |es|
  {
    if |es| == 0 then st else Run(Apply(st, es[0]), es[1..])
  }

  /** Going back right after the login step returns to the page as it was. */
  lemma BackUndoesLoginStep(st: LoginState, check: PasskeyCheck, reply: LoginReply)
    requires Inv(st) && st.step == LoginStep && st.password == []
    ensures HandleBack(Submit(st, check, reply).state) == st
  {
  }

  /** On a reachable page at the first step no passkey options are held, so a passkey sign-in is refused. */
  lemma PasskeyRefusedAtLoginStep(st: LoginState, reply: PasskeyReply)
    requires Inv(st) && st.step == LoginStep
    ensures HandlePasskeyLogin(st, reply) == (false, PasskeyUnavailable)
  {
  }

  /** Going back from the password step forgets the passkey options, so a passkey sign-in is refused. */
  lemma PasskeyRefusedAfterBack(st: LoginState, reply: PasskeyReply)
    requires st.step == PasswordStep
    ensures HandlePasskeyLogin(HandleBack(st), reply) == (false, PasskeyUnavailable)
  {
  }

  /** A failed passkey check at the login step leaves no options, so a passkey sign-in is refused. */
  lemma PasskeyRefusedAfterFailedCheck(st: LoginState, reply: PasskeyReply)
    requires Trim(st.login) != []
    ensures HandlePasskeyLogin(HandleLoginStep(st, CheckThrew).state, reply) == (false, PasskeyUnavailable)
  {
  }

  /** The code is sent exactly when the request is made from the code step. */
  lemma OtpSentOnlyAtOtpStep(st: LoginState, check: PasskeyCheck, reply: LoginReply)
    requires Submit(st, check, reply).request.Some?
    ensures Submit(st, check, reply).request.value.otp.Some? <==> st.step == OtpStep
  {
  }
}

=== FILE: prelude.dfy ===
/**
 Small shared vocabulary: an optional value (JavaScript's `undefined`/`null`
 versus a present value) and order-preserving filtering of sequences, the
 operation behind `Array.prototype.filter`.
 */
module Prelude {

  /** A value that may be absent (`undefined` or `null` in the source). */
  datatype Option<+T> = None | Some(value: T) {
    function GetOr(default: T): T {
      match this
      case Some(v) => v
      case None => default
    }
  }

  /** `a` can be obtained from `b` by deleting elements: `a` keeps `b`'s order. */
  predicate IsSubsequence<T(==)>(a: seq<T>, b: seq<T>)
    decreases |b|
  {
    |a| == 0
    || (|b| > 0
        && ((a[0] == b[0] && IsSubsequence(a[1..], b[1..])) || IsSubsequence(a, b[1..])))
  }

  /** Every sequence is a subsequence of itself. */
  lemma {:induction false} SubsequenceReflexive<T>(s: seq<T>)
    ensures IsSubsequence(s, s)
    decreases |s|
  {
    if |s| > 0 {
      SubsequenceReflexive(s[1..]);
    }
  }

  /** `Array.prototype.filter`: the elements of `xs` that `keep` accepts, in order. */
  function Filter<T(!new)>(xs: seq<T>, keep: T -> bool): (r: seq<T>)
    ensures |r| <= |xs|
    ensures IsSubsequence(r, xs)
    ensures forall x :: multiset(r)[x] == if keep(x) then multiset(xs)[x] else 0
    decreases |xs|
  {
    if |xs| == 0 then []
    else
      var rest := Filter(xs[1..], keep);
      assert xs == [xs[0]] + xs[1..];
      if keep(xs[0]) then
        assert ([xs[0]] + rest)[1..] == rest;
        [xs[0]] + rest
      else rest
  }

  /** Kept elements are exactly the accepted members of the input. */
  lemma FilterMembership<T(!new)>(xs: seq<T>, keep: T -> bool, x: T)
    ensures x in Filter(xs, keep) <==> x in xs && keep(x)
  {
    var r := Filter(xs, keep);
    assert x in r <==> multiset(r)[x] > 0;
    assert x in xs <==> multiset(xs)[x] > 0;
  }

  /** Filtering distributes over concatenation. */
  lemma {:induction false} FilterAppend<T(!new)>(xs: seq<T>, ys: seq<T>, keep: T -> bool)
    ensures Filter(xs + ys, keep) == Filter(xs, keep) + Filter(ys, keep)
    decreases |xs|
  {
    if |xs| == 0 {
      assert xs + ys == ys;
    } else {
      assert (xs + ys)[1..] == xs[1..] + ys;
      FilterAppend(xs[1..], ys, keep);
    }
  }

  /** Filtering one more element keeps it or drops it, after what the others gave. */
  lemma FilterSnoc<T(!new)>(xs: seq<T>, x: T, keep: T -> bool)
    ensures Filter(xs + [x], keep) == Filter(xs, keep) + (if keep(x) then [x] else [])
  {
    FilterAppend(xs, [x], keep);
    FilterSingle(x, keep);
  }

  lemma FilterSingle<T(!new)>(x: T, keep: T -> bool)
    ensures Filter([x], keep) == if keep(x) then [x] else []
  {
    var e: seq<T> := [];
    assert [x][1..] == e;
    assert Filter(e, keep) == [];
  }

  /** A non-empty sequence is its front followed by its last element. */
  lemma SplitLast<T>(xs: seq<T>)
    requires |xs| > 0
    ensures xs[..|xs| - 1] + [xs[|xs| - 1]] == xs
  {
  }

  /** A filter that accepts everything returns its input. */
  lemma {:induction false} FilterAll<T(!new)>(xs: seq<T>, keep: T -> bool)
    requires forall i :: 0 <= i < |xs| ==> keep(xs[i])
    ensures Filter(xs, keep) == xs
    decreases |xs|
  {
    if |xs| > 0 {
      FilterAll(xs[1..], keep);
      assert xs == [xs[0]] + xs[1..];
    }
  }
}

=== FILE: server_modal.dfy ===
/**
 The server edit form: how the form is seeded from the server being edited,
 how single fields change, the ordered validation of Save and the clean-up of
 the settings that do not belong to the chosen mode, and the guard of Delete.

 Form values are JavaScript values, so the model keeps the distinctions the
 code relies on: `undefined` versus `null`, truthiness, optional chaining
 (`a?.b` is `undefined` when `a` is `null`, `undefined` or has no `b`) and a
 `.trim()` call on something that is not a string, which throws a TypeError.
 */
module ServerModal {
  import opened Prelude
  import opened Text

  /** A JavaScript value as it can appear in the form (numbers are integers here). */
  datatype Value =
    | VUndefined
    | VNull
    | VStr(s: string)
    | VNum(n: int)
    | VBool(b: bool)
    | VObj(fields: map<string, Value>)

  /** The form: a plain object of named values. */
  type Form = map<string, Value>

  datatype Mode = Template | Cmd

  /** Truthiness: `undefined`, `null`, `""`, `0` and `false` are falsy. */
  predicate Truthy(v: Value) {
    match v
    case VUndefined => false
    case VNull => false
    case VStr(s) => s != []
    case VNum(n) => n != 0
    case VBool(b) => b
    case VObj(_) => true
  }

  /** `form.key`: `undefined` when the key is missing. */
  function Get(form: Form, key: string): Value {
    if key in form then form[key] else VUndefined
  }

  /**
   `v?.key` for the keys the form uses (`settings`, `cmd`, `template_id`,
   `transport`): only an object holding the key yields a value.
   */
  function Member(v: Value, key: string): Value {
    if v.VObj? && key in v.fields then v.fields[key] else VUndefined
  }

  /** What `!v?.trim()` finds: nothing to trim, text that trims to something, or no `trim` to call. */
  datatype TextCheck = Blank | Filled | NotText

  function CheckText(v: Value): (r: TextCheck)
    ensures r == Filled <==> v.VStr? && Trim(v.s) != []
    ensures r == NotText <==> !(v.VUndefined? || v.VNull? || v.VStr?)
  {
    match v
    case VUndefined => Blank
    case VNull => Blank
    case VStr(s) => if Trim(s) == [] then Blank else Filled
    case _ => NotText
  }

  /** The mode, transport and form the modal holds. */
  datatype ModalState = ModalState(form: Form, mode: Mode, transport: Value)

  const Fresh := ModalState(map[], Template, VStr(""))

  /** The mode a loaded server starts in: `cmd` exactly when its settings hold a truthy `cmd`. */
  function InitialMode(data: Form): (r: Mode)
    ensures r == Cmd <==> Truthy(Member(Get(data, "settings"), "cmd"))
    ensures r == Cmd ==> Get(data, "settings").VObj?
  {
    if Truthy(Member(Get(data, "settings"), "cmd")) then Cmd else Template
  }

  /** `data.transport || data.server?.transport || ''`. */
  function InitialTransport(data: Form): (r: Value)
    ensures Truthy(r) || r == VStr("")
    ensures Truthy(Get(data, "transport")) ==> r == Get(data, "transport")
    ensures !Truthy(Get(data, "transport")) && Truthy(Member(Get(data, "server"), "transport"))
      ==> r == Member(Get(data, "server"), "transport")
    ensures !Truthy(Get(data, "transport")) && !Truthy(Member(Get(data, "server"), "transport")) ==> r == VStr("")
  {
    var own := Get(data, "transport");
    var group := Member(Get(data, "server"), "transport");
    if Truthy(own) then own else if Truthy(group) then group else VStr("")
  }

  /** Opening the modal on a server seeds the form, the mode and the transport; otherwise nothing changes. */
  function Load(st: ModalState, open: bool, data: Option<Form>): (r: ModalState)
    ensures !(open && data.Some?) ==> r == st
    ensures open && data.Some? ==>
      r.form == data.value && r.mode == InitialMode(data.value) && r.transport == InitialTransport(data.value)
  {
    if open && data.Some? then ModalState(data.value, InitialMode(data.value), InitialTransport(data.value))
    else st
  }

  /** `{ ...prev, [field]: value }`. */
  function HandleChange(form: Form, field: string, value: Value): (r: Form)
    ensures field in r && r[field] == value
    ensures r.Keys == form.Keys + {field}
    ensures forall k :: k in form && k != field ==> r[k] == form[k]
  {
    form[field := value]
  }

  /** The decimal text of a natural number, the key of an array or string index. */
  function Decimal(n: nat): (r: string)
    ensures r != []
    ensures forall k :: 0 <= k < |r| ==> IsDigit(r[k])
  {
    var d := ['0' + (n % 10) as char];
    if n < 10 then d else Decimal(n / 10) + d
  }

  /** The own enumerable entries of the first `n` characters of a string: index keys to one-character strings. */
  function SpreadChars(s: string, n: nat): map<string, Value>
    requires n <= |s|
  {
    if n == 0 then map[] else SpreadChars(s, n - 1)[Decimal(n - 1) := VStr([s[n - 1]])]
  }

  /** What `{ ...v }` copies: an object's entries, a string's characters, nothing for any other value. */
  function Spread(v: Value): map<string, Value> {
    match v
    case VObj(m) => m
    case VStr(s) => SpreadChars(s, |s|)
    case _ => map[]
  }

  /** `{ ...prev, settings: { ...prev.settings, [field]: value } }`. */
  function HandleSettingsChange(form: Form, field: string, value: Value): (r: Form)
    ensures "settings" in r && r["settings"].VObj?
    ensures r.Keys == form.Keys + {"settings"}
    ensures forall k :: k in form && k != "settings" ==> r[k] == form[k]
    ensures field in r["settings"].fields && r["settings"].fields[field] == value
    ensures Get(form, "settings").VObj? ==>
      var before := Get(form, "settings").fields;
      && r["settings"].fields.Keys == before.Keys + {field}
      && forall k :: k in before && k != field ==> r["settings"].fields[k] == before[k]
    ensures !Get(form, "settings").VObj? && !Get(form, "settings").VStr? ==>
      r["settings"].fields == map[field := value]
  {
    form["settings" := VObj(Spread(Get(form, "settings"))[field := value])]
  }

  /** Why Save stopped: the first failed check, or a `.trim()` on a value that is not text. */
  datatype Rejection = NameMissing | GroupMissing | HostMissing | TemplateMissing | CmdMissing | TrimTypeError

  datatype SaveOutcome = Rejected(why: Rejection) | Saved(payload: Form)

  /** `delete v?.key`: removes the key from an object and leaves every other value as it is. */
  function DeleteMember(v: Value, key: string): Value {
    if v.VObj? then VObj(v.fields - {key}) else v
  }

  /** The payload sent for a form that passed validation: the settings of the other mode removed. */
  function CleanUp(form: Form, mode: Mode): (r: Form)
    ensures r.Keys == form.Keys
    ensures forall k :: k in form && k != "settings" ==> r[k] == form[k]
    ensures "settings" in form && !form["settings"].VObj? ==> r == form
    ensures "settings" in form && form["settings"].VObj? ==>
      r["settings"] == VObj(form["settings"].fields - {if mode == Cmd then "template_id" else "cmd"})
  {
    if "settings" in form then
      var s := form["settings"];
      var s1 := if mode != Cmd then DeleteMember(s, "cmd") else s;
      var s2 := if mode != Template then DeleteMember(s1, "template_id") else s1;
      assert s.VObj? ==> s2 == VObj(s.fields - {if mode == Cmd then "template_id" else "cmd"});
      form["settings" := s2]
    else form
  }

  /** `!formData.name?.trim()`: the name must be text that is not blank. */
  function NameCheck(form: Form): (r: Option<Rejection>)
    ensures r.None? <==> CheckText(Get(form, "name")) == Filled
    ensures r == Some(NameMissing) <==> CheckText(Get(form, "name")) == Blank
    ensures r == Some(TrimTypeError) <==> CheckText(Get(form, "name")) == NotText
  {
    match CheckText(Get(form, "name"))
    case NotText => Some(TrimTypeError)
    case Blank => Some(NameMissing)
    case Filled => None
  }

  /** `server_gid` may be any value except `null` and `undefined`. */
  function GroupCheck(form: Form): (r: Option<Rejection>)
    ensures r.None? <==> !(Get(form, "server_gid").VUndefined? || Get(form, "server_gid").VNull?)
    ensures r.Some? ==> r == Some(GroupMissing)
  {
    var gid := Get(form, "server_gid");
    if gid.VUndefined? || gid.VNull? then Some(GroupMissing) else None
  }

  /** The host must be non-blank text unless the transport is `local`. */
  function HostCheck(form: Form, transport: Value): (r: Option<Rejection>)
    ensures r.None? <==> (transport != VStr("local") ==> CheckText(Get(form, "host")) == Filled)
    ensures r == Some(HostMissing) <==> transport != VStr("local") && CheckText(Get(form, "host")) == Blank
    ensures r == Some(TrimTypeError) <==> transport != VStr("local") && CheckText(Get(form, "host")) == NotText
  {
    if transport == VStr("local") then None
    else
      match CheckText(Get(form, "host"))
      case NotText => Some(TrimTypeError)
      case Blank => Some(HostMissing)
      case Filled => None
  }

  /** Template mode needs a truthy `settings.template_id`; cmd mode a non-blank `settings.cmd`. */
  function ModeCheck(form: Form, mode: Mode): (r: Option<Rejection>)
    ensures r.None? <==>
      && (mode == Template ==> Truthy(Member(Get(form, "settings"), "template_id")))
      && (mode == Cmd ==> CheckText(Member(Get(form, "settings"), "cmd")) == Filled)
    ensures r == Some(TemplateMissing) <==> mode == Template && !Truthy(Member(Get(form, "settings"), "template_id"))
    ensures r == Some(CmdMissing) <==> mode == Cmd && CheckText(Member(Get(form, "settings"), "cmd")) == Blank
    ensures r == Some(TrimTypeError) <==> mode == Cmd && CheckText(Member(Get(form, "settings"), "cmd")) == NotText
    ensures r != Some(NameMissing) && r != Some(GroupMissing) && r != Some(HostMissing)
  {
    var settings := Get(form, "settings");
    match mode
    case Template => if Truthy(Member(settings, "template_id")) then None else Some(TemplateMissing)
    case Cmd =>
      match CheckText(Member(settings, "cmd"))
      case NotText => Some(TrimTypeError)
      case Blank => Some(CmdMissing)
      case Filled => None
  }

  /** The first of two checks that fails. */
  function FirstFailure(a: Option<Rejection>, b: Option<Rejection>): Option<Rejection> {
    if a.Some? then a else b
  }

  /** The validation chain of Save, in its order: the first failed check, or None. */
  function Validate(form: Form, mode: Mode, transport: Value): (r: Option<Rejection>)
    ensures r.None? <==>
      && CheckText(Get(form, "name")) == Filled
      && !(Get(form, "server_gid").VUndefined? || Get(form, "server_gid").VNull?)
      && (transport != VStr("local") ==> CheckText(Get(form, "host")) == Filled)
      && (mode == Template ==> Truthy(Member(Get(form, "settings"), "template_id")))
      && (mode == Cmd ==> CheckText(Member(Get(form, "settings"), "cmd")) == Filled)
    ensures r.Some? ==> r == NameCheck(form) || r == GroupCheck(form) || r == HostCheck(form, transport) || r == ModeCheck(form, mode)
  {
    FirstFailure(NameCheck(form), FirstFailure(GroupCheck(form), FirstFailure(HostCheck(form, transport), ModeCheck(form, mode))))
  }

  /** Save: the validation chain, then the clean-up of a valid form. */
  function HandleSave(form: Form, mode: Mode, transport: Value): (r: SaveOutcome)
    ensures CheckText(Get(form, "name")) == Blank ==> r == Rejected(NameMissing)
    ensures r.Saved? ==>
      && CheckText(Get(form, "name")) == Filled
      && !(Get(form, "server_gid").VUndefined? || Get(form, "server_gid").VNull?)
      && (transport != VStr("local") ==> CheckText(Get(form, "host")) == Filled)
      && (mode == Template ==> Truthy(Member(Get(form, "settings"), "template_id")))
      && (mode == Cmd ==> CheckText(Member(Get(form, "settings"), "cmd")) == Filled)
  {
    match Validate(form, mode, transport)
    case Some(why) => Rejected(why)
    case None => Saved(CleanUp(form, mode))
  }

  /** A form with a name, a group and the text its mode needs is saved, whatever else it holds. */
  lemma SaveIffValid(form: Form, mode: Mode, transport: Value)
    ensures HandleSave(form, mode, transport).Saved? <==>
      && CheckText(Get(form, "name")) == Filled
      && !(Get(form, "server_gid").VUndefined? || Get(form, "server_gid").VNull?)
      && (transport != VStr("local") ==> CheckText(Get(form, "host")) == Filled)
      && (mode == Template ==> Truthy(Member(Get(form, "settings"), "template_id")))
      && (mode == Cmd ==> CheckText(Member(Get(form, "settings"), "cmd")) == Filled)
  {
  }

  /** Checks run in order: a missing group is reported only for a form whose name is fine. */
  lemma GroupCheckedAfterName(form: Form, mode: Mode, transport: Value)
    requires HandleSave(form, mode, transport) == Rejected(GroupMissing)
    ensures CheckText(Get(form, "name")) == Filled
    ensures Get(form, "server_gid") == VUndefined || Get(form, "server_gid") == VNull
  {
  }

  /** Save reports a missing name exactly when the name is absent, `null` or blank. */
  lemma NameMissingIff(form: Form, mode: Mode, transport: Value)
    ensures HandleSave(form, mode, transport) == Rejected(NameMissing) <==> CheckText(Get(form, "name")) == Blank
  {
  }

  /** Save reports a missing group exactly when the name is fine and the group is `null` or `undefined`. */
  lemma GroupMissingIff(form: Form, mode: Mode, transport: Value)
    ensures HandleSave(form, mode, transport) == Rejected(GroupMissing) <==>
      && CheckText(Get(form, "name")) == Filled
      && (Get(form, "server_gid").VUndefined? || Get(form, "server_gid").VNull?)
  {
  }

  /** Save reports a missing host exactly when the name and group are fine, the transport is not `local` and the host is blank. */
  lemma HostMissingIff(form: Form, mode: Mode, transport: Value)
    ensures HandleSave(form, mode, transport) == Rejected(HostMissing) <==>
      && CheckText(Get(form, "name")) == Filled
      && !(Get(form, "server_gid").VUndefined? || Get(form, "server_gid").VNull?)
      && transport != VStr("local") && CheckText(Get(form, "host")) == Blank
  {
  }

  /** Save reports a missing template exactly when the earlier checks pass in template mode and `settings.template_id` is falsy. */
  lemma TemplateMissingIff(form: Form, mode: Mode, transport: Value)
    ensures HandleSave(form, mode, transport) == Rejected(TemplateMissing) <==>
      && CheckText(Get(form, "name")) == Filled
      && !(Get(form, "server_gid").VUndefined? || Get(form, "server_gid").VNull?)
      && (transport != VStr("local") ==> CheckText(Get(form, "host")) == Filled)
      && mode == Template && !Truthy(Member(Get(form, "settings"), "template_id"))
  {
  }

  /** Save reports a missing command exactly when the earlier checks pass in cmd mode and `settings.cmd` is blank. */
  lemma CmdMissingIff(form: Form, mode: Mode, transport: Value)
    ensures HandleSave(form, mode, transport) == Rejected(CmdMissing) <==>
      && CheckText(Get(form, "name")) == Filled
      && !(Get(form, "server_gid").VUndefined? || Get(form, "server_gid").VNull?)
      && (transport != VStr("local") ==> CheckText(Get(form, "host")) == Filled)
      && mode == Cmd && CheckText(Member(Get(form, "settings"), "cmd")) == Blank
  {
  }

  /**
   Save stops on a TypeError exactly when the first `.trim()` it reaches is
   called on something that is not text: the name, else the host, else the
   command.
   */
  lemma TrimTypeErrorIff(form: Form, mode: Mode, transport: Value)
    ensures HandleSave(form, mode, transport) == Rejected(TrimTypeError) <==>
      || CheckText(Get(form, "name")) == NotText
      || (&& CheckText(Get(form, "name")) == Filled
          && !(Get(form, "server_gid").VUndefined? || Get(form, "server_gid").VNull?)
          && transport != VStr("local") && CheckText(Get(form, "host")) == NotText)
      || (&& CheckText(Get(form, "name")) == Filled
          && !(Get(form, "server_gid").VUndefined? || Get(form, "server_gid").VNull?)
          && (transport != VStr("local") ==> CheckText(Get(form, "host")) == Filled)
          && mode == Cmd && CheckText(Member(Get(form, "settings"), "cmd")) == NotText)
  {
  }

  /** A group id of 0 is a group: only `null` and `undefined` count as missing. */
  lemma ZeroGroupAccepted(form: Form, mode: Mode, transport: Value)
    requires Get(form, "server_gid") == VNum(0)
    ensures HandleSave(form, mode, transport) != Rejected(GroupMissing)
  {
    assert GroupCheck(form).None?;
    assert NameCheck(form) != Some(GroupMissing);
    assert HostCheck(form, transport) != Some(GroupMissing);
    assert ModeCheck(form, mode) != Some(GroupMissing);
  }

  /** With the local transport the host is never looked at: any host gives the same verdict. */
  lemma LocalHostIgnored(form: Form, mode: Mode, host: Value)
    ensures Validate(form["host" := host], mode, VStr("local")) == Validate(form, mode, VStr("local"))
    ensures HandleSave(form["host" := host], mode, VStr("local")).Saved? <==>
      HandleSave(form, mode, VStr("local")).Saved?
  {
    assert Get(form["host" := host], "name") == Get(form, "name");
    assert Get(form["host" := host], "server_gid") == Get(form, "server_gid");
    assert Get(form["host" := host], "settings") == Get(form, "settings");
  }

  /**
   The saved payload: the keys of the form, each unchanged except `settings`,
   which loses `cmd` unless the mode is `cmd` and `template_id` unless the
   mode is `template`, and keeps every other entry.
   */
  lemma SavedPayload(form: Form, mode: Mode, transport: Value)
    requires HandleSave(form, mode, transport).Saved?
    ensures var p := HandleSave(form, mode, transport).payload;
      && p.Keys == form.Keys
      && (forall k :: k in form && k != "settings" ==> p[k] == form[k])
      && "settings" in form && form["settings"].VObj? && p["settings"].VObj?
      && var before := form["settings"].fields;
         var after := p["settings"].fields;
         && (forall k :: k in before && k != "cmd" && k != "template_id" ==> k in after && after[k] == before[k])
         && (forall k :: k in after ==> k in before && after[k] == before[k])
         && ("cmd" in after <==> mode == Cmd && "cmd" in before)
         && ("template_id" in after <==> mode == Template && "template_id" in before)
  {
    assert ModeCheck(form, mode).None?;
    var before := Get(form, "settings");
    assert before.VObj?;
    var after := if mode == Cmd then before.fields - {"template_id"} else before.fields - {"cmd"};
    assert CleanUp(form, mode) == form["settings" := VObj(after)];
    CleanedSettings(before.fields, mode);
  }

  /** Removing the key of the other mode keeps every other setting and the chosen mode's own key. */
  lemma CleanedSettings(before: map<string, Value>, mode: Mode)
    ensures var after := if mode == Cmd then before - {"template_id"} else before - {"cmd"};
      && (forall k :: k in before && k != "cmd" && k != "template_id" ==> k in after && after[k] == before[k])
      && (forall k :: k in after ==> k in before && after[k] == before[k])
      && ("cmd" in after <==> mode == Cmd && "cmd" in before)
      && ("template_id" in after <==> mode == Template && "template_id" in before)
  {
    assert "cmd" != "template_id";
  }

  /** Cleaning up twice removes nothing more. */
  lemma CleanUpIdempotent(form: Form, mode: Mode)
    ensures CleanUp(CleanUp(form, mode), mode) == CleanUp(form, mode)
  {
    if "settings" in form && form["settings"].VObj? {
      var m := CleanUp(form, mode)["settings"].fields;
      if mode == Template {
        assert m - {"cmd"} == m;
      } else {
        assert m - {"template_id"} == m;
      }
    }
  }

  /** The clean-up removes only what the chosen mode does not check, so the verdict stays the same. */
  lemma CleanUpKeepsVerdict(form: Form, mode: Mode, transport: Value)
    ensures Validate(CleanUp(form, mode), mode, transport) == Validate(form, mode, transport)
  {
    var p := CleanUp(form, mode);
    CleanUpKeepsField(form, mode, "name");
    assert NameCheck(p) == NameCheck(form);
    CleanUpKeepsField(form, mode, "server_gid");
    assert GroupCheck(p) == GroupCheck(form);
    CleanUpKeepsField(form, mode, "host");
    assert HostCheck(p, transport) == HostCheck(form, transport);
    CleanUpKeepsModeKey(form, mode);
    assert ModeCheck(p, mode) == ModeCheck(form, mode);
  }

  /** The clean-up touches no top-level field but `settings`. */
  lemma CleanUpKeepsField(form: Form, mode: Mode, key: string)
    requires key != "settings"
    ensures Get(CleanUp(form, mode), key) == Get(form, key)
  {
  }

  /** The clean-up keeps the setting the chosen mode checks. */
  lemma CleanUpKeepsModeKey(form: Form, mode: Mode)
    ensures mode == Template ==>
      Member(Get(CleanUp(form, mode), "settings"), "template_id") == Member(Get(form, "settings"), "template_id")
    ensures mode == Cmd ==>
      Member(Get(CleanUp(form, mode), "settings"), "cmd") == Member(Get(form, "settings"), "cmd")
  {
    assert "cmd" != "template_id";
  }

  /** Saving the saved payload again, in the same mode, sends the same payload. */
  lemma SaveIdempotent(form: Form, mode: Mode, transport: Value)
    requires HandleSave(form, mode, transport).Saved?
    ensures var p := HandleSave(form, mode, transport).payload;
      HandleSave(p, mode, transport) == Saved(p)
  {
    CleanUpKeepsVerdict(form, mode, transport);
    CleanUpIdempotent(form, mode);
  }

  /** A server saved in some mode opens again in that mode. */
  lemma LoadAfterSaveKeepsMode(st: ModalState, form: Form, mode: Mode, transport: Value)
    requires HandleSave(form, mode, transport).Saved?
    ensures Load(st, true, Some(HandleSave(form, mode, transport).payload)).mode == mode
  {
    SavedPayload(form, mode, transport);
  }

  /** A server loaded with no transport of its own or of its group is checked for a host. */
  lemma LoadedWithoutTransportNeedsHost(st: ModalState, data: Form)
    requires !Truthy(Get(data, "transport")) && !Truthy(Member(Get(data, "server"), "transport"))
    ensures var m := Load(st, true, Some(data));
      HandleSave(m.form, m.mode, m.transport).Saved? ==> CheckText(Get(data, "host")) == Filled
  {
  }

  /** A server loaded with a non-blank `settings.cmd` opens in cmd mode and passes the mode check. */
  lemma LoadedCmdPassesModeCheck(st: ModalState, data: Form)
    requires CheckText(Member(Get(data, "settings"), "cmd")) == Filled
    ensures var m := Load(st, true, Some(data));
      m.mode == Cmd && ModeCheck(m.form, m.mode).None?
  {
  }

  /** `onDelete(formData.server_id)` is called only with a handler and a truthy server id. */
  function DeleteRequest(hasHandler: bool, form: Form): (r: Option<Value>)
    ensures r.Some? <==> hasHandler && Truthy(Get(form, "server_id"))
    ensures r.Some? ==> r.value == form["server_id"]
  {
    if hasHandler && Truthy(Get(form, "server_id")) then Some(form["server_id"]) else None
  }

  /** A form that never had a server id, such as a new server's, cannot be deleted. */
  lemma DeleteNeedsId(hasHandler: bool, form: Form)
    requires "server_id" !in form
    ensures DeleteRequest(hasHandler, form).None?
    ensures DeleteRequest(hasHandler, Fresh.form).None?
  {
  }

  /** Opening the modal on a server with a truthy id makes Delete send that id. */
  lemma DeleteAfterLoad(st: ModalState, data: Form)
    requires Truthy(Get(data, "server_id"))
    ensures DeleteRequest(true, Load(st, true, Some(data)).form) == Some(data["server_id"])
  {
  }
}

=== FILE: text.dfy ===
/**
 The JavaScript string operations the dashboard relies on, over `seq<char>`:
 `startsWith`, `endsWith`, `includes`, `indexOf`, `lastIndexOf`, `slice`,
 `trim`, `split`, `join`, `toLowerCase` (for ASCII letters) and the
 character classes `\w` and `\d` of regular expressions.
 */
module Text {
  import opened Prelude

  /** The regular-expression class `[A-Za-z0-9_]`. */
  predicate IsWordChar(c: char) {
    ('A' <= c <= 'Z') || ('a' <= c <= 'z') || ('0' <= c <= '9') || c == '_'
  }

  /** The regular-expression class `\d` (no Unicode flag): ASCII digits only. */
  predicate IsDigit(c: char) {
    '0' <= c <= '9'
  }

  /** The characters `String.prototype.trim` removes: white space and line terminators. */
  predicate IsJsSpace(c: char) {
    var n := c as int;
    n == 0x09 || n == 0x0A || n == 0x0B || n == 0x0C || n == 0x0D || n == 0x20
    || n == 0xA0 || n == 0x1680 || (0x2000 <= n <= 0x200A)
    || n == 0x2028 || n == 0x2029 || n == 0x202F || n == 0x205F
    || n == 0x3000 || n == 0xFEFF
  }

  predicate StartsWith(s: string, p: string) {
    |p| <= |s| && s[..|p|] == p
  }

  predicate EndsWith(s: string, p: string) {
    |p| <= |s| && s[|s| - |p|..] == p
  }

  /** `p` occurs in `s` starting at index `i`. */
  predicate OccursAt(s: string, p: string, i: int) {
    0 <= i && i + |p| <= |s| && s[i..i + |p|] == p
  }

  /** `String.prototype.includes`. */
  predicate Contains(s: string, p: string) {
    exists i :: 0 <= i <= |s| - |p| && OccursAt(s, p, i)
  }

  /** Searches the start positions below `n` from the top down. */
  function LastIndexBelow(s: string, p: string, n: nat): (r: int)
    ensures -1 <= r < n
    ensures r >= 0 ==> OccursAt(s, p, r)
    ensures forall i :: r < i < n ==> !OccursAt(s, p, i)
  {
    if n == 0 then -1
    else if OccursAt(s, p, n - 1) then n - 1
    else LastIndexBelow(s, p, n - 1)
  }

  /** `String.prototype.lastIndexOf`: the rightmost start of `p` in `s`, or -1. */
  function LastIndexOf(s: string, p: string): (r: int)
    ensures r == -1 || OccursAt(s, p, r)
    ensures r >= -1
    ensures forall i :: r < i ==> !OccursAt(s, p, i)
  {
    LastIndexBelow(s, p, |s| + 1)
  }

  /** `String.prototype.indexOf` for one character: the leftmost index of `c`, or -1. */
  function IndexOfChar(s: string, c: char): (r: int)
    ensures r == -1 <==> c !in s
    ensures r >= 0 ==> r < |s| && s[r] == c && c !in s[..r]
  {
    if |s| == 0 then -1
    else if s[0] == c then 0
    else
      var i := IndexOfChar(s[1..], c);
      assert s == [s[0]] + s[1..];
      if i < 0 then -1
      else
        assert s[..i + 1] == [s[0]] + s[1..][..i];
        i + 1
  }

  /** `s.split(c)[0]`: the text before the first `c`, or all of `s`. */
  function BeforeFirst(s: string, c: char): (r: string)
    ensures StartsWith(s, r)
    ensures c !in r
    ensures |r| < |s| ==> s[|r|] == c
  {
    var i := IndexOfChar(s, c);
    if i < 0 then s else s[..i]
  }

  /** `s.slice(0, end)` with JavaScript's clamping of a negative or too large `end`. */
  function SliceTo(s: string, end: int): (r: string)
    ensures StartsWith(s, r)
    ensures 0 <= end <= |s| ==> |r| == end
    ensures end < 0 ==> |r| == if |s| + end < 0 then 0 else |s| + end
    ensures end > |s| ==> r == s
  {
    var e := if end < 0 then (if |s| + end < 0 then 0 else |s| + end)
             else if end > |s| then |s| else end;
    s[..e]
  }

  /** `String.prototype.trimEnd`. */
  function TrimEnd(s: string): (r: string)
    ensures StartsWith(s, r)
    ensures r == [] || !IsJsSpace(r[|r| - 1])
    ensures forall k :: |r| <= k < |s| ==> IsJsSpace(s[k])
  {
    if |s| == 0 || !IsJsSpace(s[|s| - 1]) then s
    else TrimEnd(s[..|s| - 1])
  }

  /** `String.prototype.trimStart`. */
  function TrimStart(s: string): (r: string)
    ensures EndsWith(s, r)
    ensures r == [] || !IsJsSpace(r[0])
    ensures forall k :: 0 <= k < |s| - |r| ==> IsJsSpace(s[k])
  {
    if |s| == 0 || !IsJsSpace(s[0]) then s
    else
      var r := TrimStart(s[1..]);
      assert forall k :: 1 <= k < |s| - |r| ==> s[k] == s[1..][k - 1];
      r
  }

  /** `String.prototype.trim`: no white space left at either end. */
  function Trim(s: string): (r: string)
    ensures r == [] || (!IsJsSpace(r[0]) && !IsJsSpace(r[|r| - 1]))
    ensures |r| <= |s|
  {
    var e := TrimEnd(s);
    var t := TrimStart(e);
    assert t == [] || t[|t| - 1] == e[|e| - 1];
    t
  }

  /** Text that starts and ends with a non-space character is its own trim. */
  lemma TrimKeepsSolidText(s: string)
    requires |s| > 0 && !IsJsSpace(s[0]) && !IsJsSpace(s[|s| - 1])
    ensures Trim(s) == s
  {
    assert TrimEnd(s) == s;
    assert TrimStart(s) == s;
  }

  /** A string is blank when trimming leaves nothing. */
  lemma BlankIffAllSpace(s: string)
    ensures Trim(s) == [] <==> forall k :: 0 <= k < |s| ==> IsJsSpace(s[k])
  {
    var e := TrimEnd(s);
    if e != [] {
      assert e[|e| - 1] == s[|e| - 1];
    }
  }

  /** Where the run of word characters that ends at index `n` of `s` begins. */
  function WordRunStart(s: string, n: nat): (i: nat)
    requires n <= |s|
    ensures i <= n
    ensures forall k :: i <= k < n ==> IsWordChar(s[k])
    ensures i == 0 || !IsWordChar(s[i - 1])
    decreases n
  {
    if n == 0 || !IsWordChar(s[n - 1]) then n else WordRunStart(s, n - 1)
  }

  /** The longest run of word characters that ends `s`. */
  function TrailingWordRun(s: string): (r: string)
    ensures EndsWith(s, r)
    ensures forall k :: 0 <= k < |r| ==> IsWordChar(r[k])
    ensures |r| == |s| || !IsWordChar(s[|s| - |r| - 1])
  {
    s[WordRunStart(s, |s|)..]
  }

  /** `Array.prototype.join` of strings with separator `sep`. */
  function Join(parts: seq<string>, sep: string): string
    decreases |parts|
  {
    if |parts| == 0 then []
    else if |parts| == 1 then parts[0]
    else parts[0] + sep + Join(parts[1..], sep)
  }

  /** `String.prototype.split` at every occurrence of the character `c`. */
  function Split(s: string, c: char): (r: seq<string>)
    ensures |r| >= 1
    ensures forall i :: 0 <= i < |r| ==> c !in r[i]
    decreases |s|
  {
    var i := IndexOfChar(s, c);
    if i < 0 then [s] else [s[..i]] + Split(s[i + 1..], c)
  }

  /** The leftmost occurrence of `c` is found where it is. */
  lemma IndexOfCharAt(s: string, c: char, i: int)
    requires 0 <= i < |s| && s[i] == c && c !in s[..i]
    ensures IndexOfChar(s, c) == i
  {
    assert s[i] in s;
  }

  /** Splitting cuts at the first occurrence of the separator. */
  lemma SplitAtFirst(s: string, c: char, i: int)
    requires 0 <= i < |s| && s[i] == c && c !in s[..i]
    ensures Split(s, c) == [s[..i]] + Split(s[i + 1..], c)
  {
    IndexOfCharAt(s, c, i);
    SplitOnce(s, c);
  }

  /** One step of splitting: the piece before the leftmost separator, then the split of the rest. */
  lemma SplitOnce(s: string, c: char)
    ensures var i := IndexOfChar(s, c);
      Split(s, c) == if i < 0 then [s] else [s[..i]] + Split(s[i + 1..], c)
  {
  }

  /** Joining pieces that contain no separator and splitting again gives the pieces back. */
  lemma {:induction false} SplitJoin(parts: seq<string>, c: char)
    requires |parts| >= 1
    requires forall i :: 0 <= i < |parts| ==> c !in parts[i]
    ensures Split(Join(parts, [c]), c) == parts
    decreases |parts|
  {
    if |parts| > 1 {
      var head := parts[0];
      var rest := Join(parts[1..], [c]);
      var s := head + [c] + rest;
      assert Join(parts, [c]) == s;
      assert s[..|head|] == head;
      assert s[|head| + 1..] == rest;
      SplitAtFirst(s, c, |head|);
      SplitJoin(parts[1..], c);
      assert parts == [head] + parts[1..];
    }
  }

  /** Splitting and joining with the same separator gives the string back. */
  lemma {:induction false} JoinSplit(s: string, c: char)
    ensures Join(Split(s, c), [c]) == s
    decreases |s|
  {
    var i := IndexOfChar(s, c);
    if i >= 0 {
      var tail := Split(s[i + 1..], c);
      JoinSplit(s[i + 1..], c);
      SplitAtFirst(s, c, i);
      JoinCons(s[..i], tail, [c]);
      assert s == s[..i] + [c] + s[i + 1..];
    }
  }

  /** Joining a piece in front of at least one more piece puts the separator between them. */
  lemma JoinCons(head: string, tail: seq<string>, sep: string)
    requires |tail| >= 1
    ensures Join([head] + tail, sep) == head + sep + Join(tail, sep)
  {
    assert ([head] + tail)[1..] == tail;
  }

  /** `toLowerCase` restricted to ASCII letters. */
  function ToLowerAscii(s: string): (r: string)
    ensures |r| == |s|
    ensures forall k :: 0 <= k < |s| ==> r[k] == LowerChar(s[k])
  {
    seq(|s|, k requires 0 <= k < |s| => LowerChar(s[k]))
  }

  /** One character of `toLowerCase`: an ASCII capital becomes its small letter, anything else is kept. */
  function LowerChar(c: char): (r: char)
    ensures 'A' <= c <= 'Z' ==> r as int == c as int + 32
    ensures !('A' <= c <= 'Z') ==> r == c
  {
    if 'A' <= c <= 'Z' then (c as int + 32) as char else c
  }

  /** `s.replace(/\D/g, '')`: the ASCII digits of `s`, in order. */
  function Digits(s: string): (r: string)
    ensures forall k :: 0 <= k < |r| ==> IsDigit(r[k])
    ensures IsSubsequence(r, s)
  {
    Filter(s, IsDigit)
  }
}

=== FILE: tt_completion.dfy ===
/**
 Autocompletion for the Template Toolkit (`tt`) markup in the code editor.

 A snippet catalog (key -> prefix(es), body line(s), optional description) is
 flattened once into a list of suggestions, one per prefix.  On each request
 the text of the line before the cursor decides whether the cursor sits in an
 open `{{` tag, and if so whether the list is narrowed to an `identifier.`
 group, to dotted labels, or not at all.  Registration with the editor host is
 guarded by a flag stored on the host.
 */
module TtCompletion {
  import opened Prelude
  import opened Text

  /** A snippet field that is either one string or a list of strings. */
  datatype OneOrMany = One(text: string) | Many(items: seq<string>)

  /** The shape of one catalog entry: trigger prefix(es), body line(s), description. */
  datatype Snippet = Snippet(prefix: OneOrMany, body: OneOrMany, description: Option<string>)

  /** One `[key, snippet]` pair of the catalog, in the catalog's entry order. */
  datatype Entry = Entry(key: string, snippet: Snippet)

  type Catalog = seq<Entry>

  /** The editor-facing fields of a completion item (kind and insert rule are fixed constants). */
  datatype Suggestion = Suggestion(labelText: string, detail: string, documentation: string, insertText: string)

  /** A list body is its lines joined with newlines; a string body is kept as is. */
  function NormalizeBody(body: OneOrMany): (r: string)
    ensures body.One? ==> r == body.text
    ensures body.Many? ==> r == Join(body.items, "\n")
  {
    match body
    case One(t) => t
    case Many(lines) => Join(lines, "\n")
  }

  /** The inserted text of a list body splits back into exactly the declared lines. */
  lemma BodyLinesRoundTrip(body: OneOrMany)
    requires body.Many? && |body.items| >= 1
    requires forall i :: 0 <= i < |body.items| ==> '\n' !in body.items[i]
    ensures Split(NormalizeBody(body), '\n') == body.items
  {
    SplitJoin(body.items, '\n');
  }

  /** A string prefix becomes a one-element list; a list is kept as is. */
  function NormalizePrefixes(prefix: OneOrMany): (r: seq<string>)
    ensures prefix.One? ==> r == [prefix.text]
    ensures prefix.Many? ==> r == prefix.items
  {
    match prefix
    case One(p) => [p]
    case Many(ps) => ps
  }

  /** A single prefix and a one-element list of it describe the same suggestions. */
  lemma SinglePrefixSpellings(key: string, p: string, body: OneOrMany, description: Option<string>)
    ensures var one := Entry(key, Snippet(One(p), body, description));
      && EntrySuggestions(one) == EntrySuggestions(Entry(key, Snippet(Many([p]), body, description)))
      && EntrySuggestions(one) == [MakeSuggestion(one, p)]
  {
  }

  function Prefixes(e: Entry): seq<string> {
    NormalizePrefixes(e.snippet.prefix)
  }

  /** `description || key`: an absent or empty description falls back to the key. */
  function Describe(e: Entry): (r: string)
    ensures r == e.key || (e.snippet.description == Some(r) && r != [])
    ensures e.snippet.description.Some? && e.snippet.description.value != [] ==> r == e.snippet.description.value
  {
    match e.snippet.description
    case Some(d) => if d != [] then d else e.key
    case None => e.key
  }

  /** The suggestion offered for entry `e` under trigger `prefix`. */
  function MakeSuggestion(e: Entry, prefix: string): Suggestion {
    Suggestion(prefix, Describe(e), Describe(e), NormalizeBody(e.snippet.body))
  }

  /** The suggestions of one entry, one per prefix, in prefix order. */
  function EntrySuggestions(e: Entry): (r: seq<Suggestion>)
    ensures |r| == |Prefixes(e)|
    ensures forall j :: 0 <= j < |r| ==> r[j] == MakeSuggestion(e, Prefixes(e)[j])
  {
    var ps := Prefixes(e);
    seq(|ps|, j requires 0 <= j < |ps| => MakeSuggestion(e, ps[j]))
  }

  /** The number of (entry, prefix) pairs in a catalog. */
  function PrefixCount(c: Catalog): nat {
    if |c| == 0 then 0 else |Prefixes(c[0])| + PrefixCount(c[1..])
  }

  /** Where the suggestions of entry `i` start in the flattened list. */
  function Offset(c: Catalog, i: nat): nat
    requires i <= |c|
  {
    PrefixCount(c[..i])
  }

  /** The catalog flattened: entry order first, prefix order within an entry. */
  function AllSuggestions(c: Catalog): (r: seq<Suggestion>)
    ensures |r| == PrefixCount(c)
    decreases |c|
  {
    if |c| == 0 then [] else EntrySuggestions(c[0]) + AllSuggestions(c[1..])
  }

  /** Prefix `j` of entry `i` yields the suggestion at position `Offset(c, i) + j`. */
  lemma {:induction false} SuggestionAt(c: Catalog, i: nat, j: nat)
    requires i < |c| && j < |Prefixes(c[i])|
    ensures Offset(c, i) + j < |AllSuggestions(c)|
    ensures AllSuggestions(c)[Offset(c, i) + j] == MakeSuggestion(c[i], Prefixes(c[i])[j])
    decreases i
  {
    var head := EntrySuggestions(c[0]);
    if i == 0 {
      assert c[..0] == [];
      assert PrefixCount(c) == |head| + PrefixCount(c[1..]);
    } else {
      SuggestionAt(c[1..], i - 1, j);
      assert c[..i][1..] == c[1..][..i - 1];
      assert Offset(c, i) == |head| + Offset(c[1..], i - 1);
    }
  }

  /** Every position of the flattened list comes from exactly one (entry, prefix) pair. */
  function Origin(c: Catalog, k: nat): (ij: (nat, nat))
    requires k < |AllSuggestions(c)|
    ensures ij.0 < |c| && ij.1 < |Prefixes(c[ij.0])|
    ensures Offset(c, ij.0) + ij.1 == k
    ensures AllSuggestions(c)[k] == MakeSuggestion(c[ij.0], Prefixes(c[ij.0])[ij.1])
    decreases |c|
  {
    var head := EntrySuggestions(c[0]);
    var n := |head|;
    assert AllSuggestions(c) == head + AllSuggestions(c[1..]);
    assert c[..0] == [];
    if k < n then (0, k)
    else
      var ij := Origin(c[1..], k - n);
      assert AllSuggestions(c)[k] == AllSuggestions(c[1..])[k - n];
      assert c[..ij.0 + 1][1..] == c[1..][..ij.0];
      (ij.0 + 1, ij.1)
  }

  /** The inserted text of every suggestion is some catalog body, verbatim. */
  lemma InsertTextIsDeclaredBody(c: Catalog, k: nat)
    requires k < |AllSuggestions(c)|
    ensures exists i :: 0 <= i < |c| && AllSuggestions(c)[k].insertText == NormalizeBody(c[i].snippet.body)
  {
    var ij := Origin(c, k);
  }

  /** What the cursor position says about the wanted suggestions. */
  datatype Context =
    | NotInTag              // no `{{` after the last `}}`: nothing is offered
    | Group(prefix: string) // after `identifier.`: labels starting with it
    | BareDot               // after a `.` with no word character before it
    | Unfiltered            // inside a tag, anything else

  /** `lineContent.slice(0, column - 1)`: the text left of a 1-based cursor column. */
  function TextBeforeCursor(line: string, column: int): string {
    SliceTo(line, column - 1)
  }

  /** The rightmost `{{` lies right of the rightmost `}}` (absent counts as -1). */
  predicate InTag(before: string)
    ensures InTag(before) ==> exists i :: 0 <= i < |before| && OccursAt(before, "{{", i)
    ensures InTag(before) ==> !EndsWith(before, "}}")
  {
    assert EndsWith(before, "}}") ==> OccursAt(before, "}}", |before| - 2);
    LastIndexOf(before, "{{") > LastIndexOf(before, "}}")
  }

  /** A `{{` with no `}}` after it opens a tag. */
  lemma InTagIff(before: string)
    ensures InTag(before) <==>
      exists i :: 0 <= i < |before| && OccursAt(before, "{{", i)
                  && forall j :: i < j ==> !OccursAt(before, "}}", j)
  {
    var o := LastIndexOf(before, "{{");
    var cl := LastIndexOf(before, "}}");
    if InTag(before) {
      assert OccursAt(before, "{{", o);
    } else {
      forall i | 0 <= i < |before| && OccursAt(before, "{{", i)
        ensures exists j :: i < j && OccursAt(before, "}}", j)
      {
        assert i <= o;
        assert OccursAt(before, "}}", cl);
      }
    }
  }

  /**
   `p` is what `([A-Za-z0-9_]+)\.$` captures with its dot in `t`: a suffix
   of `t` made of one or more word characters and a final `.`, with no word
   character right before it.
   */
  predicate GroupSuffix(t: string, p: string) {
    && |p| >= 2 && EndsWith(t, p) && p[|p| - 1] == '.'
    && (forall k :: 0 <= k < |p| - 1 ==> IsWordChar(p[k]))
    && (|p| == |t| || !IsWordChar(t[|t| - |p| - 1]))
  }

  /** A trailing dot together with the word run before it is a suffix whose first character follows no word character. */
  lemma DotAfterRun(t: string)
    requires EndsWith(t, ".")
    ensures |TrailingWordRun(t[..|t| - 1])| > 0 ==> GroupSuffix(t, TrailingWordRun(t[..|t| - 1]) + ".")
    ensures |TrailingWordRun(t[..|t| - 1])| == 0 ==> |t| == 1 || !IsWordChar(t[|t| - 2])
  {
    var u := t[..|t| - 1];
    var run := TrailingWordRun(u);
    assert t == u + ".";
    if |run| > 0 {
      var p := run + ".";
      assert u[|u| - |run|..] == run;
      assert t[|t| - |p|..] == p;
      assert |p| < |t| ==> t[|t| - |p| - 1] == u[|u| - |run| - 1];
      assert forall k :: 0 <= k < |run| ==> p[k] == run[k];
    } else if |t| > 1 {
      assert t[|t| - 2] == u[|u| - 1];
    }
  }

  /** The context at the end of `before`, following the source's regular expression `([A-Za-z0-9_]+)\.$` on the trimmed text. */
  function ResolveContext(before: string): (r: Context)
    ensures r.NotInTag? <==> !InTag(before)
    ensures r.Group? ==> GroupSuffix(Trim(before), r.prefix)
    ensures r.BareDot? ==>
      var t := Trim(before);
      && EndsWith(t, ".") && (|t| == 1 || !IsWordChar(t[|t| - 2]))
    ensures r.Unfiltered? ==> !EndsWith(Trim(before), ".")
    ensures InTag(before) && EndsWith(Trim(before), ".") ==> r.Group? || r.BareDot?
  {
    if !InTag(before) then NotInTag
    else
      var t := Trim(before);
      if EndsWith(t, ".") then
        var run := TrailingWordRun(t[..|t| - 1]);
        DotAfterRun(t);
        if |run| > 0 then Group(run + ".") else BareDot
      else Unfiltered
  }

  /** The suggestions offered at `column` of `line`, drawn from the full list `all`. */
  function GetSuggestions(all: seq<Suggestion>, line: string, column: int): (r: seq<Suggestion>)
    ensures IsSubsequence(r, all)
    ensures !InTag(TextBeforeCursor(line, column)) ==> r == []
    ensures ResolveContext(TextBeforeCursor(line, column)).Group? ==>
      var p := ResolveContext(TextBeforeCursor(line, column)).prefix;
      forall x :: multiset(r)[x] == if StartsWith(x.labelText, p) then multiset(all)[x] else 0
    ensures ResolveContext(TextBeforeCursor(line, column)).BareDot? ==>
      forall x :: multiset(r)[x] == if Contains(x.labelText, ".") then multiset(all)[x] else 0
    ensures ResolveContext(TextBeforeCursor(line, column)).Unfiltered? ==> r == all
  {
    var ctx := ResolveContext(TextBeforeCursor(line, column));
    match ctx
    case NotInTag => []
    case Group(p) =>
      var keep := (x: Suggestion) => StartsWith(x.labelText, p);
      var r := Filter(all, keep);
      assert forall x :: multiset(r)[x] == if keep(x) then multiset(all)[x] else 0;
      r
    case BareDot =>
      var keep := (x: Suggestion) => Contains(x.labelText, ".");
      var r := Filter(all, keep);
      assert forall x :: multiset(r)[x] == if keep(x) then multiset(all)[x] else 0;
      r
    case Unfiltered => SubsequenceReflexive(all); all
  }

  /** With a cursor inside a tag, a group filter returns every suggestion of that group and nothing else. */
  lemma GroupMembership(all: seq<Suggestion>, line: string, column: int, x: Suggestion)
    requires ResolveContext(TextBeforeCursor(line, column)).Group?
    ensures x in GetSuggestions(all, line, column) <==>
      x in all && StartsWith(x.labelText, ResolveContext(TextBeforeCursor(line, column)).prefix)
  {
    var r := GetSuggestions(all, line, column);
    assert x in r <==> multiset(r)[x] > 0;
    assert x in all <==> multiset(all)[x] > 0;
  }

  /** A pattern whose first character does not occur is nowhere in the text. */
  lemma AbsentWhenFirstCharAbsent(s: string, p: string)
    requires |p| > 0 && p[0] !in s
    ensures LastIndexOf(s, p) == -1
  {
    forall i | OccursAt(s, p, i)
      ensures false
    {
    }
  }

  /** A suffix of word characters preceded by a non-word character is the trailing run. */
  lemma TrailingRunIs(s: string, n: nat)
    requires n < |s| && !IsWordChar(s[|s| - n - 1])
    requires forall k :: |s| - n <= k < |s| ==> IsWordChar(s[k])
    ensures TrailingWordRun(s) == s[|s| - n..]
  {
  }

  /** An identifier group before the cursor inside a tag selects that group. */
  lemma ExampleGroupPrefix()
    ensures ResolveContext("{{ foo.bar.Greeting.") == Group("Greeting.")
  {
    var s := "{{ foo.bar.Greeting.";
    assert OccursAt(s, "{{", 0);
    AbsentWhenFirstCharAbsent(s, "}}");
    TrimKeepsSolidText(s);
    var t := s[..|s| - 1];
    assert t == "{{ foo.bar.Greeting";
    TrailingRunIs(t, 8);
    assert t[|t| - 8..] == "Greeting";
  }

  /** Without any `{{` before the cursor nothing is offered, dots or not. */
  lemma ExampleNoTag()
    ensures ResolveContext("some text") == NotInTag
    ensures ResolveContext("foo.bar.Greeting.") == NotInTag
  {
    AbsentWhenFirstCharAbsent("some text", "{{");
    AbsentWhenFirstCharAbsent("foo.bar.Greeting.", "{{");
  }

  /** Inside a tag with no trailing dot the whole list is offered. */
  lemma ExampleUnfiltered()
    ensures ResolveContext("{{ IF x") == Unfiltered
  {
    var s := "{{ IF x";
    assert OccursAt(s, "{{", 0);
    AbsentWhenFirstCharAbsent(s, "}}");
    TrimKeepsSolidText(s);
  }

  /** A dot after an operator asks for every dotted label. */
  lemma ExampleBareDot()
    ensures ResolveContext("{{ x + .") == BareDot
  {
    var s := "{{ x + .";
    assert OccursAt(s, "{{", 0);
    AbsentWhenFirstCharAbsent(s, "}}");
    TrimKeepsSolidText(s);
    var u := s[..|s| - 1];
    assert u == "{{ x + ";
    assert !IsWordChar(u[6]);
    assert TrailingWordRun(u) == [];
  }

  /** The languages the source attaches a completion provider to, in registration order. */
  const TtLanguages: seq<string> := ["tt", "plaintext", "html", "json", "javascript", "shell", "perl"]

  /** Characters that make the editor ask for completions. */
  const TriggerCharacters: seq<char> := ['{', '.']

  /** A registered completion provider: it answers `GetSuggestions(suggestions, line, column)`. */
  datatype Provider = Provider(language: string, triggerCharacters: seq<char>, suggestions: seq<Suggestion>)

  /** The editor host as far as registration sees it: the guard flag, declared language ids, providers. */
  datatype Host = Host(completionRegistered: bool, languageIds: seq<string>, providers: seq<Provider>)

  function ProvidersFor(languages: seq<string>, all: seq<Suggestion>): (r: seq<Provider>)
    ensures |r| == |languages|
    ensures forall k :: 0 <= k < |r| ==> r[k] == Provider(languages[k], TriggerCharacters, all)
  {
    seq(|languages|, k requires 0 <= k < |languages| => Provider(languages[k], TriggerCharacters, all))
  }

  /** One-shot registration: a missing host or a set flag leaves everything as it is. */
  function RegisterTtCompletion(host: Option<Host>, c: Catalog): (r: Option<Host>)
    ensures host.None? ==> r.None?
    ensures host.Some? && host.value.completionRegistered ==> r == host
    ensures host.Some? && !host.value.completionRegistered ==>
      var h := host.value;
      && r.Some?
      && r.value.completionRegistered
      && "tt" in r.value.languageIds
      && (if "tt" in h.languageIds then r.value.languageIds == h.languageIds
          else r.value.languageIds == h.languageIds + ["tt"])
      && |r.value.providers| == |h.providers| + 7
      && r.value.providers[..|h.providers|] == h.providers
      && (forall k :: 0 <= k < 7 ==>
            r.value.providers[|h.providers| + k] == Provider(TtLanguages[k], TriggerCharacters, AllSuggestions(c)))
  {
    match host
    case None => None
    case Some(h) =>
      if h.completionRegistered then host
      else
        var ids := if "tt" in h.languageIds then h.languageIds else h.languageIds + ["tt"];
        var added := ProvidersFor(TtLanguages, AllSuggestions(c));
        assert (h.providers + added)[..|h.providers|] == h.providers;
        Some(Host(true, ids, h.providers + added))
  }

  /** A second registration changes nothing, whatever catalog it is given. */
  lemma RegisterTwiceIsOnce(host: Option<Host>, c1: Catalog, c2: Catalog)
    ensures RegisterTtCompletion(RegisterTtCompletion(host, c1), c2) == RegisterTtCompletion(host, c1)
  {
  }

  lemma LanguagesDistinct()
    ensures forall i, j :: 0 <= i < j < |TtLanguages| ==> TtLanguages[i] != TtLanguages[j]
  {
  }

  /** A first registration adds exactly one provider for each listed language and none for others. */
  lemma OneProviderPerLanguage(h: Host, c: Catalog)
    requires !h.completionRegistered
    ensures var r := RegisterTtCompletion(Some(h), c).value;
      && (forall k :: |h.providers| <= k < |r.providers| ==> r.providers[k].language in TtLanguages)
      && (forall i :: 0 <= i < |TtLanguages| ==> r.providers[|h.providers| + i].language == TtLanguages[i])
      && (forall k1, k2 :: |h.providers| <= k1 < k2 < |r.providers| ==>
            r.providers[k1].language != r.providers[k2].language)
  {
    var all := AllSuggestions(c);
    var added := ProvidersFor(TtLanguages, all);
    var r := RegisterTtCompletion(Some(h), c).value;
    var n := |h.providers|;
    assert r.providers == h.providers + added;
    LanguagesDistinct();
    ProvidersForLanguages(TtLanguages, all);
    forall k | n <= k < |r.providers|
      ensures r.providers[k].language == added[k - n].language
    {
      assert r.providers[k] == added[k - n];
    }
    forall i | 0 <= i < |TtLanguages|
      ensures r.providers[n + i].language == TtLanguages[i]
    {
      assert r.providers[n + i] == added[i];
    }
  }

  /** Providers for distinct languages serve exactly those languages, each once. */
  lemma ProvidersForLanguages(languages: seq<string>, all: seq<Suggestion>)
    requires forall i, j :: 0 <= i < j < |languages| ==> languages[i] != languages[j]
    ensures forall k :: 0 <= k < |ProvidersFor(languages, all)| ==> ProvidersFor(languages, all)[k].language in languages
    ensures forall k1, k2 :: 0 <= k1 < k2 < |ProvidersFor(languages, all)| ==>
      ProvidersFor(languages, all)[k1].language != ProvidersFor(languages, all)[k2].language
  {
  }
}
